=== FILE: README.md ===
# RL-and-IRL: the discrete logic of the inverted-pendulum and grid-world experiments

This project models the parts of the RL/IRL experiment code that are exact logic rather than floating-point numerics. The numeric pieces are parameters: pendulum physics, Gaussian kernel values, LSTD-Q's matrix inversion, and every source of randomness. The project then proves what the code promises about shapes, indices, control flow and episode boundaries.

Modules, one per file:

- `Wrappers` (wrappers.dfy) defines `Option`, `Result` and an `Error` type. The errors name the ways the Python and C code fail: unpacking errors, impossible reshapes, `max` of an empty sequence, and out-of-range matrix writes.
- `Arith` (arith.dfy) holds the division and multiplication facts the index proofs need.
- `Shapes` (shapes.dfy) models numpy arrays as a shape plus row-major data.
  - `non_scalar_vectorize` is modelled twice. `NonScalarVectorize` is the function as written. `Vectorize` is the corrected one, which slices every argument laid out as a batch of items, a batch of one included. It is used everywhere else (see Findings).
  - `zip_stack` is `ZipStack`.
- `Pendulum` (pendulum.dfy) holds the pendulum's features and reward.
  - The 10-entry `psi` has a bias slot followed by a 3×3 grid of kernel values, with the kernel a parameter.
  - The 30-entry `phi` copies `psi` into a block. Negative actions index with Python's slice semantics.
  - The sparse reward, and `psi` applied to numpy arrays and to batches.
- `Greedy` (greedy.dfy) models `argmax` with Python's `max` tie rule (the first maximum wins) and `greedy_policy` over an ordered action list.
- `Rollout` (rollout.dfy) models `inverted_pendulum_trace`. Policy, physics, initial-state sampler and reward are fields of an `Environment`. Each random draw is indexed by its step or draw number.
- `Performance` (performance.dfy) covers the discounted sum of `imitation_performance` and its bounds for the pendulum's {−1, 0} rewards.
- `Lspi` (lspi.dfy) models the control flow of `lspi`, with one LSTD-Q solve and `norm` as parameters.
- `GridWorld` (gridworld.dfy) models the one-hot encoders `phi`, `psi` and `initial_state` of GridWorld/plot.c.
  - Arithmetic is on C `unsigned int`, so it wraps modulo 2^32.
  - The grid's width and height are parameters, because GridWorld.h is not part of this model.
  - A write outside the allocated vector is an `OutOfRange` error.
- `Walks` (walks.dfy) models the random-walk loop of InvertedPendulum/generator.c. It also defines how its output splits back into episodes.

Behaviour of the code that the model follows as written:

- `prod(arg.shape)/prod(input_shape)` is Python 2 integer division on non-negative values. Dafny's `/` on naturals gives the same result.
- `zip` stops at the shortest argument. If any argument is shorter than the first, the final reshape fails, and the model returns `ShapeMismatch`.
- `answer[action*10 : action*10+10] = psi` normalises negative bounds like Python slicing. Actions −3 and −2 therefore write blocks 0 and 1. Any other action outside {0, 1, 2} gives a slice of the wrong length, which is an error.
- `psi`'s `position,speed=state` iterates the first axis. A (2,1) column unpacks into two one-element rows and works. A (2,k) array with k > 1 unpacks too, but assigning its rows into `answer[index]` fails, so `Pendulum.PsiOnArray` gives `ShapeMismatch`.
- `policy`'s `hstack(args+(a,))` joins a one-dimensional state with the scalar action. On an argument of more than one dimension it joins along the second axis, which the scalar lacks, and fails (`ShapeMismatch`).
- In `inverted_pendulum_trace` the sampler is called once before the loop and once after every step with a non-zero reward.

## Model

| member | source | states |
|---|---|---|
| Shapes.MapAll | Exp1.py:41-43 | The per-item loop succeeds exactly when `func` succeeds on every item. Answer `k` is `func`'s answer for item `k`, in order. |
| Shapes.OuterShape | Exp1.py:38-39 | The leading axes in front of `input_shape`, which put back in front of it give the argument's shape. `(1,)` when there are none. |
| Shapes.Reshape | Exp1.py:40 | `reshape` succeeds exactly when the new shape's element count equals the data's. It keeps the data in order, and otherwise fails. |
| Shapes.Stack | Exp1.py:44 | `array(answers)` stacks equal-shaped answers under a new leading axis of length `len(answers)`. Cutting the result into answer-sized blocks gives the answers back. Answers of different shapes are reported as `RaggedAnswers` (see Left out). |
| Shapes.VectorizeSlices | Exp1.py:38-44 | The slicing path succeeds only when the argument holds a whole number of items and `func` succeeds on every slice. It then has shape `outer_shape + output_shape`. |
| Shapes.NonScalarVectorize | Exp1.py:33-44 | As written: an argument whose element count equals one item's is passed to `func` whole, whatever its shape. Otherwise a successful answer has shape `outer_shape + output_shape`. |
| Shapes.Vectorize | Exp1.py:20-45 | Corrected vectorizer: an argument laid out as a batch (shape ending in `input_shape` with a leading axis) is always sliced per item, with shape `outer_shape + output_shape`. Every other argument is treated as written, so exactly `input_shape` goes to `func` whole. |
| Shapes.SlicePathSucceeds | Exp1.py:38-44 | On an argument of shape `outer + input_shape`, the batch path cuts the data into `prod(outer)` slices in row-major order. Output block `k` is `func` of slice `k`, and the shape is `outer + output_shape`. |
| Shapes.VectorizeAppliesPerItem | Exp1.py:35-44 | As written, for any batch holding other than one item, `func` runs once per input slice, in order, and the result shape is `outer_shape + output_shape`. |
| Shapes.BatchOfOneGoesWhole | Exp1.py:35-37 | As written, a batch of shape `(1,) + input_shape` is not sliced. `func` receives the whole batch. |
| Shapes.VectorizeBatch | Exp1.py:25-44 | Corrected vectorizer: every batch, a batch of one included, is applied per slice and has shape `outer + output_shape`, as the docstring describes. |
| Shapes.BatchOfOneMatchesSingle | Exp1.py:25-29 | Corrected vectorizer: a single item and a batch of one give the same elements, and the batch has one extra leading axis of size 1. |
| Shapes.MinLength | Exp1.py:55 | `zip` keeps as many tuples as the shortest argument has elements. The result is no longer than any argument and equal to one of them. |
| Shapes.ZipStack | Exp1.py:47-55 | No arguments is an error. Otherwise the result exists iff no argument is shorter than the first. It then has shape `args[0].shape + (n,)`, and element `[i][k]` is flattened element `i` of argument `k`. |
| Shapes.ZipReshape | Exp1.py:54-55 | The final reshape of the zipped rows succeeds exactly when every argument has at least the first argument's element count. The rows come back unchanged when regrouped. |
| Shapes.ZipStackColumns | Exp1.py:52-55 | Round trip: when no argument is shorter than the first, column `k` of `zip_stack(*args)` is argument `k` flattened, cut to the first argument's element count. That is all of it when the sizes agree. |
| Pendulum.CentreValues | Exp1.py:79-80 | The kernel centres are `linspace(-pi/4, pi/4, 3)` = (−π/4, 0, π/4) for position and `linspace(-1, 1, 3)` = (−1, 0, 1) for speed. |
| Pendulum.Psi | Exp1.py:73-85 | `psi` has exactly 10 entries. Slot 0 is the bias 1.0. Slot `1+3i+j` is the kernel at the squared distance to centre `(i, j)`, position-major. |
| Pendulum.PsiSlots | Exp1.py:79-83 | Flattening the 3×3 grid of kernel values puts centre `(i, j)` at offset `3i+j`. |
| Pendulum.Phi | Exp1.py:95-100 | `phi` succeeds exactly for actions in {−3, −2, 0, 1, 2}. It has 30 entries, block `(action mod 3)*10 .. +10` equals `psi`, and every other entry is 0. |
| Pendulum.PhiRecoversAction | Exp1.py:97-99 | For an action in {0, 1, 2}, entry `action*10` is 1. The first non-zero entry is at `action*10`, so that index divided by 10 gives the action back. |
| Pendulum.PhiInjective | Exp1.py:95-100 | Distinct actions in the action space give distinct `phi` vectors, whatever the states. |
| Pendulum.PhiNegativeActionsWrap | Exp1.py:98-99 | By Python's negative slice bounds, actions −3 and −2 give the same vector as actions 0 and 1. |
| Pendulum.Reward | Exp1.py:143-150 | Fails on fewer than two components. Otherwise it is −1 iff \|position\| > π/2 and 0 iff \|position\| ≤ π/2, where position is the second-to-last component and π is numpy's double `pi`, written out exactly. |
| Pendulum.RewardAtHorizontal | Exp1.py:146 | At position exactly ±`pi/2.` (halving the double is exact) the test `abs(position) > pi/2.` is false, so the reward is 0. |
| Pendulum.RewardReadsLastTwo | Exp1.py:144 | The reward depends only on the last two components. |
| Pendulum.PsiOnArray | Exp1.py:73-85 | On a numpy argument `psi` succeeds exactly when the first axis has length 2 and the rest hold one element, e.g. (2,) or (2,1). It then gives the (10,1) array of `psi` of that pair. A first axis of another length is an unpacking error. |
| Pendulum.PsiMapsShape | Exp1.py:87 | `psi` maps every (2,) item to a (10,1) answer, as its vectorization declares. |
| Pendulum.PsiBatch | Exp1.py:87 | `inverted_pendulum_psi` on one state of shape (2,) is `psi` of that state, in shape (10,1). |
| Pendulum.PsiOfColumn | Exp1.py:35-37 | A single state given as a (2,1) column reaches `psi` whole, both as written and corrected, and gives `psi` of that state. |
| Pendulum.PsiBatchOfOneFails | Exp1.py:35-37 | As written, `inverted_pendulum_psi` on one state of shape (1,2) hands the batch to `psi` whole, and the unpacking fails. |
| Pendulum.PsiBatchOfOneCorrected | Exp1.py:25-29 | With the corrected vectorizer, that batch gives shape (1,10,1) holding `psi` of the state. |
| Pendulum.PsiBatchPerState | Exp1.py:87-91 | Corrected vectorizer: on states of shape `outer + (2,)`, block `k` of `inverted_pendulum_psi`'s answer is `psi` of the k-th state, and the shape is `outer + (10,1)`. |
| Greedy.MaxScan | Exp1.py:244 | Python's `max` scan replaces the best only on a strictly greater key, so it ends on the first maximal position. |
| Greedy.FirstMax | Exp1.py:244 | On a non-empty sequence the position found is maximal and before every other maximum. |
| Greedy.FirstMaxUnique | Exp1.py:244 | The first maximal position is unique, so any position that is maximal and earliest is the one `max` returns. |
| Greedy.Argmax | Exp1.py:243-244 | Fails exactly on an empty set. Otherwise it returns an element with maximal key, the first one among ties. |
| Greedy.ArgmaxOfPairs | Exp1.py:248-250 | The best (state, action) pair's action is in `A`, has a Q-value at least every other action's, and is the earliest such action. |
| Greedy.GreedyAction | Exp1.py:246-251 | The greedy policy fails iff `A` is empty. Otherwise it returns an action of `A` whose Q-value is maximal. |
| Greedy.GreedyIsFirstMax | Exp1.py:246-251 | Converse: the earliest action of `A` with maximal Q-value is the one the policy returns. |
| Greedy.PolicyOnArray | Exp1.py:246-251 | `policy` on one numpy argument succeeds exactly for a flat pair when `A` is non-empty, answering that state's greedy action. With `A` empty, `max` of the empty list raises first. Otherwise a multi-dimensional argument makes `hstack` fail. |
| Greedy.PolicyMapsShape | Exp1.py:252 | For non-empty `A`, `policy` maps every (2,) item to a (1,1) answer, as its vectorization declares. |
| Greedy.PolicyBatch | Exp1.py:252-253 | Corrected vectorizer: on one state of shape (2,) the policy succeeds iff `A` is non-empty and answers the greedy action in shape (1,). |
| Greedy.PolicyBatchAsWritten | Exp1.py:252-253 | As written, the vectorized policy agrees with the corrected one on every argument not laid out as a batch of states, and on every batch whose leading axes hold other than exactly one state. |
| Greedy.VectorizedPolicyPerState | Exp1.py:252 | Corrected vectorizer: on states of shape `outer + (2,)` the vectorized policy answers in shape `outer + (1,1)`, entry `k` being the k-th state's greedy action. |
| Greedy.PolicyBatchReshapes | Exp1.py:253 | The policy's answer is the vectorized answer reshaped to `state.shape[:-1] + (1,)`. |
| Greedy.PolicyBatchPerState | Exp1.py:252-253 | Corrected vectorizer: on states of shape `outer + (2,)` with `A` non-empty, the policy succeeds with shape `outer + (1,)`, entry `k` being the k-th state's greedy action. |
| Greedy.PolicyBatchOfOneFails | Exp1.py:35-37 | As written, one state given as a batch of shape (1,2) reaches `policy` whole. `hstack` then fails, or with `A` empty `max` of the empty list does. |
| Greedy.PolicyBatchOfOneCorrected | Exp1.py:25-29 | With the corrected vectorizer, that batch gets the state's greedy action in shape (1,1). |
| Rollout.Row | Exp1.py:169-170 | A trace row has `TRANS_WIDTH` = 6 columns, with the action in column 2 and the reward in column 5. |
| Rollout.Hstack | Exp1.py:169 | `hstack([state, action, new_state])` has 5 entries: the state, the action as a real, then the new state. |
| Rollout.RolloutFrom | Exp1.py:166-174 | The loop from step `i` emits exactly `n - i` rows. |
| Rollout.Trace | Exp1.py:161-175 | The trace has exactly `run_length` rows. |
| Rollout.RolloutSteps | Exp1.py:166-170 | The first row starts from the given state, and every row is one policy/physics/reward step from its own state. |
| Rollout.RolloutChained | Exp1.py:171-174 | The next row's state is the physics successor after reward 0 and a fresh sample otherwise. |
| Rollout.TraceIsRollout | Exp1.py:164-175 | Row 0 starts from the first sample. Row `i+1` starts from `new_state` when row `i`'s reward is 0; otherwise from the next fresh initial state, whose number is one plus the falls so far. |
| Rollout.PendulumRewardOnRows | Exp1.py:169 | The pendulum reward on `hstack([state, action, new_state])` reads the new position. It is −1 or 0 accordingly. |
| Rollout.TraceRewardsInRange | Exp1.py:169-170 | When the reward only takes values −1 or 0 (as the pendulum reward does), every reward in the trace's reward column is −1 or 0. |
| Pendulum.RewardOnArray | Exp1.py:143-150 | The single reward as the vectorizer maps it: it succeeds iff the input has at least two components, and then answers the single reward as a 0-dimensional array. |
| Pendulum.RewardSlicesFail | Exp1.py:34-44 | On a flat vector whose length is not 5 to 9, the slicing path of `non_scalar_vectorize(single_reward, (5,), (1,1))` always fails. Either the reshape into rows of five fails, or the stacked answers (none, or two and more) do not fit the `(1,1,1)` result shape. |
| Pendulum.VectorizedReward | Exp1.py:152-153 | `inverted_pendulum_reward` on a flat vector, `squeeze` of the vectorized single reward. It succeeds iff the vector has 5 to 9 components, and then it equals the single reward. |
| Rollout.PendulumReward | Exp1.py:152-153 | The reward a rollout uses. On 5 to 9 components, including the five of `Rollout.Hstack`, it is the vectorized reward and the single reward, −1 iff the new position is past ±π/2. |
| Rollout.PendulumEnvironmentRewards | Exp1.py:143-153 | An environment rewarded by the pendulum's reward gives −1 or 0 on every transition. |
| Performance.DotDiscounts | Exp1.py:462-465 | `sum(r * GAMMAS)` starting at power `from` equals `γ^from` times the Bellman-form return `r₀ + γ(r₁ + γ(…))`. |
| Performance.DiscountedSum | Exp1.py:462-465 | `sum(rewards * GAMMAS)`, each reward weighted by `γ` to the power of its step, equals the recursive return `r₀ + γ(r₁ + γ(…))`. |
| Performance.GeometricClosedForm | Exp1.py:462 | `Σ_{n<N} γⁿ · (1 − γ) = 1 − γ^N`. |
| Performance.PowBetween | Exp1.py:462 | For 0 ≤ γ ≤ 1, every entry of `GAMMAS` lies in [0, 1]. |
| Performance.GammasInUnitInterval | Exp1.py:462 | `GAMMAS` has 70 weights, each in (0, 1]. |
| Performance.PowPositive | Exp1.py:462 | For γ > 0, every entry of `GAMMAS` is positive. |
| Performance.ReturnBounds | Exp1.py:465 | With rewards in {−1, 0}, the discounted sum lies between `−Σ γⁿ` and 0. |
| Performance.ReturnZeroIffNoFall | Exp1.py:465 | For γ > 0 the discounted sum is 0 iff no reward is −1. |
| Performance.SumBounds | Exp1.py:465 | A sum of values in [lo, 0] lies in [n·lo, 0], and is 0 iff every value is 0. |
| Performance.RolloutValueBounds | Exp1.py:464-465 | Each 70-step rollout's value lies in [−Σ_{n<70} 0.9ⁿ, 0], and is 0 iff the pendulum never falls. |
| Performance.RolloutValue | Exp1.py:465 | `sum(traj[:,5]*GAMMAS)` for rollout `k` is the return of its 70-entry reward column. |
| Performance.ImitationPerformance | Exp1.py:463-466 | The criterion is the mean, over 100 rollouts of 70 steps, of each rollout's return. |
| Performance.MeanBounds | Exp1.py:466 | The mean of values in [lo, 0] lies in [lo, 0], and is 0 iff every value is 0. |
| Performance.GeometricBelowTen | Exp1.py:462 | `Σ_{n<70} 0.9ⁿ < 10`. |
| Performance.ImitationPerformanceBounds | Exp1.py:463-466 | `imitation_performance` lies in [−Σ_{n<70} 0.9ⁿ, 0], so it is above −10. It is 0 iff none of the 100 rollouts ever falls. |
| Performance.PendulumImitationBounds | Exp1.py:143-153 | With the pendulum's own reward in every rollout, the criterion of lines 463-466 lies in [−Σ_{n<70} 0.9ⁿ, 0], above −10, and is 0 iff no rollout falls. |
| Lspi.Zeros | Exp1.py:279 | The initial weights are `phi_dim` zeros. |
| Lspi.Lspi | Exp1.py:272-300 | The loop runs between 1 and `iterations_max + 1` times and exits on its first iteration with counter > `iterations_max` or diff < `epsilon`. The policy is greedy for the last loop weights, and the returned weights come from one more solve. |
| GridWorld.OneHot | GridWorld/plot.c:19-24 | A `calloc`ed vector of length `n` with entry `k` set has 1.0 at `k` and 0 at every other index. |
| GridWorld.PhiDim | GridWorld/plot.c:15 | `g_iK` is an `unsigned int`, equal to `H·W·4` when the grid fits. |
| GridWorld.PsiDim | GridWorld/plot.c:16 | `g_iP` is an `unsigned int`, equal to `H·W` when the grid fits, and a quarter of `g_iK`. |
| GridWorld.PhiIndex | GridWorld/plot.c:23 | The `phi` index is always an `unsigned int`. For an in-grid cell and action 1..4 nothing wraps: it is `((y−1)·W + (x−1))·4 + (a−1)`, below `H·W·4`. |
| GridWorld.PsiIndex | GridWorld/plot.c:32 | The `psi` index is always an `unsigned int`. For an in-grid cell nothing wraps: it is `(y−1)·W + (x−1)`, below `H·W`. |
| GridWorld.Phi | GridWorld/plot.c:18-26 | `phi` succeeds exactly when its 32-bit index is below `g_iK`. Otherwise the write is out of range. |
| GridWorld.Psi | GridWorld/plot.c:28-35 | `psi` succeeds exactly when its 32-bit index is below `g_iP`. Otherwise the write is out of range. |
| GridWorld.PsiInRange | GridWorld/plot.c:16-35 | For an in-grid cell, the `psi` index is `(y−1)·W + (x−1)`, below `g_iP = H·W`, and `psi` is one-hot there. |
| GridWorld.PhiInRange | GridWorld/plot.c:15-26 | For an in-grid cell and action 1..4, the `phi` index is `(y−1)·W·4 + (x−1)·4 + a−1`, below `g_iK = H·W·4`, and `phi` is one-hot there. |
| GridWorld.PhiBlockIsPsiIndex | GridWorld/plot.c:23-32 | `phi`'s index divided by 4 is `psi`'s index for the same cell, and its remainder is `a−1`. |
| GridWorld.PhiIndexDecodes | GridWorld/plot.c:23 | The `phi` index decodes back to `(x, y, a)` by mod 4, (div 4) mod W and div 4W. |
| GridWorld.PhiIndexOnto | GridWorld/plot.c:23 | Every index below `g_iK` decodes to an in-range cell and action whose `phi` index it is. |
| GridWorld.PhiIndexInjective | GridWorld/plot.c:23 | Distinct in-range (cell, action) triples have distinct `phi` indices. |
| GridWorld.InitialStateIsFirstCell | GridWorld/plot.c:37-42 | The initial state (1,1) is in the grid, has `psi` index 0, and `psi` succeeds on it. |
| GridWorld.PhiColumnZero | GridWorld/plot.c:20-24 | Column x = 0 is out of range in row 1 through unsigned wrap-around. In later rows it aliases the last cell of the row above. |
| GridWorld.InitialState | GridWorld/plot.c:37-42 | The initial state lies in every grid and is the first cell, `psi` index 0. |
| Walks.Generate | InvertedPendulum/generator.c:13 | A run of the generator emits exactly `NUMBER_OF_WALKS` = 500 walks. |
| Walks.WalkFrom | InvertedPendulum/generator.c:18-34 | From step `j` a walk has between 1 and `3000 − j` rows, starts from the given state with the step's random action, and is a finished episode. |
| Walks.Walk | InvertedPendulum/generator.c:13-34 | Walk `i` has between 1 and `MAX_WALK_LENGTH` rows, starts from its `iv_init` state, and is a finished episode. |
| Walks.WalkFromShape | InvertedPendulum/generator.c:18-33 | From step `j` a walk has between 1 and `3000 − j` rows, chains each row's state to the previous next state, and flags every row but the last with 1. The last row's flag is not 1, and is 0 at the cap. |
| Walks.WalkShape | InvertedPendulum/generator.c:13-34 | Each walk starts from its `iv_init` state and has 1 to `MAX_WALK_LENGTH` rows. Every row is one `iv_step` of the random action, row `j+1`'s state is row `j`'s next state, only the last row's flag differs from 1, and a walk that reaches the cap ends with flag 0. |
| Walks.SplitConcat | InvertedPendulum/generator.c:29-31 | Cutting concatenated finished episodes after each row whose flag is not 1 gives the episodes back. |
| Walks.OutputSplitsIntoWalks | InvertedPendulum/generator.c:13-34 | The printed rows split back, at their flags, into exactly the 500 walks in order. |

## Left out

- `lstdq`: the accumulation and `inv(A + λI)` are floating-point linear algebra. `Lspi.Lspi` takes one solve as the parameter `solve`, and `norm` as `distance`.
- Pendulum dynamics (`inverted_pendulum_next_state`) use `sin`/`cos` and `rand()` noise. They are the `step` field of `Rollout.Environment`.
- Gaussian values in `psi`: the kernel d ↦ exp(−d/2) is the parameter `kernel`. The squared distance to each centre is modelled exactly.
- Randomness (`rand`, `uniform`, `choice`, `srand`/`getpid`, `random_int`) becomes oracles indexed by step, draw or walk number, since these functions have no other logical content.
- `iv_init` and `iv_step` are oracles, because their bodies are not part of this model.
- The sklearn classifier and regressor, the CSI reward pipeline, `IRL_performance`, plotting, and notebook top-level cells are foreign libraries and plotting.
- The `plot_func` callback and the progress `print` in `lspi` are I/O.
- `GridWorld/plot.c` `main` (GSL allocation, files, LSPI/ANIRL calls) and `generator.c`'s `printf` formatting are I/O. A printed line is the `Walks.Row` record.
- The `(unsigned int)` cast from `double` in `plot.c` is not modelled. Coordinates enter as natural numbers; fractional or negative inputs are not modelled.
- Pendulum.Phi: the action is an integer. The source unpacks it as a float from the state-action array and uses `action*10` as a slice bound; non-integral actions are not modelled.
- Shapes.VectorizeSlices, Shapes.NonScalarVectorize and Shapes.Vectorize require `prod(input_shape) > 0`. An empty input shape has product 1 and is covered. An input shape containing 0 is not modelled: numpy's integer division by zero returns 0 with a warning instead of raising.
- Rollout.PendulumReward: outside 5 to 9 components the source raises, while the model returns 0.0. `Pendulum.VectorizedReward` keeps the error. A rollout only ever passes the five components of `Rollout.Hstack`, so this case does not arise there.
- Shapes.Stack: for answers of different shapes numpy builds an object array, or raises for some shapes, while the model returns `RaggedAnswers`. Every function the program vectorizes answers in one fixed shape, so this case does not arise.
- Actions in `Rollout` are integers. `hstack` turns them into reals in the reward input, and `Rollout.Hstack` does the same.
- `Pendulum.Linspace`'s contract states only the length. `Pendulum.CentreValues` states the three values it takes in this program.
- Floating-point rounding is not modelled: reals are exact. For instance, `GAMMAS` is computed exactly.

## Findings

| source | as written | input that shows it | evidently intended | confidence | as-written member | corrected member |
|---|---|---|---|---|---|---|
| Exp1.py:35-37 | `if nbinputs == 1: return func(arg)` sends any argument with one item's worth of elements to `func` unsliced, whatever its shape | `inverted_pendulum_psi` on one state of shape (1,2): `position,speed=state` iterates the outer axis of length 1, and the unpacking fails | an argument laid out as a batch, `outer + input_shape`, is always sliced. A batch of one gives shape (1,10,1), as the docstring at lines 25-29 says for n states | not executed; high | Shapes.NonScalarVectorize, Pendulum.PsiBatchOfOneFails | Shapes.Vectorize, Pendulum.PsiBatchOfOneCorrected |
| Exp1.py:252-253 | `vpolicy` is built with the same shortcut, so a batch of one state reaches `policy` unsliced | `greedy_policy(omega, phi, A)` with non-empty `A` on one state of shape (1,2): `hstack` of the 2-d state with the scalar action fails | the batch of one gets its greedy action, in shape (1,1) | not executed; high | Greedy.PolicyBatchAsWritten, Greedy.PolicyBatchOfOneFails | Greedy.PolicyBatch, Greedy.PolicyBatchOfOneCorrected |

=== FILE: arith.dfy ===
/** Small facts about natural-number division and multiplication used by
    the index encoders. */
module Arith {

  /** Euclidean division is determined by quotient and remainder. */
  lemma DivModUnique(j: nat, n: nat, q: nat, r: nat)
    requires n > 0 && r < n && j == q * n + r
    ensures j / n == q && j % n == r
  {
    var q' := j / n;
    var r' := j % n;
    assert j == q' * n + r';
    if q > q' {
      MulLeMul(q' + 1, q, n);
    } else if q < q' {
      MulLeMul(q + 1, q', n);
    }
  }

  lemma MulLeMul(a: nat, b: nat, n: nat)
    requires a <= b
    ensures a * n <= b * n
  {
  }

  /** An index below `rows * n` has a row number below `rows`. */
  lemma DivBelow(j: nat, n: nat, rows: nat)
    requires n > 0 && j < rows * n
    ensures j / n < rows
  {
    var q := j / n;
    assert j == q * n + j % n;
    if q >= rows {
      MulLeMul(rows, q, n);
    }
  }

  /** A row-major cell `(q, r)` of a `rows x n` table lies below `rows * n`. */
  lemma RowMajorBelow(q: nat, r: nat, rows: nat, n: nat)
    requires q < rows && r < n
    ensures q * n + r < rows * n
  {
    MulLeMul(q + 1, rows, n);
  }

  lemma MulCancel(a: nat, b: nat, n: nat)
    requires n > 0 && a * n == b * n
    ensures a == b
  {
    DivModUnique(a * n, n, a, 0);
    DivModUnique(b * n, n, b, 0);
  }
}

=== FILE: greedy.dfy ===
/** Greedy action selection of Exp1.py (`argmax`, `greedy_policy`). The
    Q-value `dot(omega.T, phi(sa))` is a parameter `q`. */
module Greedy {
  import opened Wrappers
  import opened Shapes
  import opened Pendulum

  /** `k` is the first position at which `f` takes its maximum over `xs`. */
  predicate IsFirstMax<T>(xs: seq<T>, f: T -> real, k: nat)
  {
    && k < |xs|
    && (forall j :: 0 <= j < |xs| ==> f(xs[j]) <= f(xs[k]))
    && (forall j :: 0 <= j < k ==> f(xs[j]) < f(xs[k]))
  }

  /** Python's `max(pairs, key=...)` scan from position `i`, holding the
      best position so far: a later element replaces it only when its key
      is strictly greater. */
  function MaxScan<T>(xs: seq<T>, f: T -> real, i: nat, best: nat): (k: nat)
    requires best < i <= |xs|
    requires forall j :: 0 <= j < i ==> f(xs[j]) <= f(xs[best])
    requires forall j :: 0 <= j < best ==> f(xs[j]) < f(xs[best])
    ensures IsFirstMax(xs, f, k)
    decreases |xs| - i
  {
    if i == |xs| then best
    else if f(xs[i]) > f(xs[best]) then MaxScan(xs, f, i + 1, i)
    else MaxScan(xs, f, i + 1, best)
  }

  function FirstMax<T>(xs: seq<T>, f: T -> real): (k: nat)
    requires |xs| > 0
    ensures IsFirstMax(xs, f, k)
  {
    MaxScan(xs, f, 1, 0)
  }

  /** Only one position is the first maximum: any position with both
      properties is the one `max` picks. */
  lemma FirstMaxUnique<T>(xs: seq<T>, f: T -> real, k: nat)
    requires IsFirstMax(xs, f, k)
    ensures k == FirstMax(xs, f)
  {
  }

  /** `argmax(set, func)`: the element of maximal `func` value, the
      earliest one on ties; `max` of an empty sequence raises. */
  function Argmax<T>(xs: seq<T>, f: T -> real): (r: Result<T>)
    ensures r.Err? <==> |xs| == 0
    ensures r.Err? ==> r.error == EmptySequence
    ensures r.Ok? ==> exists k: nat :: IsFirstMax(xs, f, k) && r.value == xs[k]
  {
    if |xs| == 0 then Err(EmptySequence) else Ok(xs[FirstMax(xs, f)])
  }

  /** The pair `hstack(state + (a,))` built for each action; its last
      component (`[-1]`) is the action. */
  datatype StateAction = StateAction(state: State, action: int)

  /** `greedy_policy(omega, phi, A)` at one state: the action of `actions`
      with the largest Q-value, the earliest one on ties. */
  function GreedyAction(q: (State, int) -> real, actions: seq<int>, s: State): (r: Result<int>)
    ensures r.Err? <==> |actions| == 0
    ensures r.Ok? ==> r.value in actions
    ensures r.Ok? ==> forall a :: a in actions ==> q(s, a) <= q(s, r.value)
    ensures r.Ok? ==> exists k :: 0 <= k < |actions| && actions[k] == r.value
                        && forall j :: 0 <= j < k ==> q(s, actions[j]) < q(s, r.value)
  {
    var stateActions := seq(|actions|, k requires 0 <= k < |actions| => StateAction(s, actions[k]));
    var f := (sa: StateAction) => q(sa.state, sa.action);
    var best :- Argmax(stateActions, f);
    ArgmaxOfPairs(q, actions, s, stateActions, f, best);
    Ok(best.action)
  }

  lemma ArgmaxOfPairs(q: (State, int) -> real, actions: seq<int>, s: State, stateActions: seq<StateAction>,
                      f: StateAction -> real, best: StateAction)
    requires |stateActions| == |actions|
    requires forall k :: 0 <= k < |actions| ==> stateActions[k] == StateAction(s, actions[k])
    requires forall sa :: f(sa) == q(sa.state, sa.action)
    requires exists k: nat :: IsFirstMax(stateActions, f, k) && best == stateActions[k]
    ensures best.action in actions
    ensures forall a :: a in actions ==> q(s, a) <= q(s, best.action)
    ensures exists k :: 0 <= k < |actions| && actions[k] == best.action
              && forall j :: 0 <= j < k ==> q(s, actions[j]) < q(s, best.action)
  {
    var k: nat :| IsFirstMax(stateActions, f, k) && best == stateActions[k];
    assert best == StateAction(s, actions[k]);
    forall a | a in actions
      ensures q(s, a) <= q(s, best.action)
    {
      var j :| 0 <= j < |actions| && actions[j] == a;
      assert f(stateActions[j]) <= f(stateActions[k]);
    }
    forall j | 0 <= j < k
      ensures q(s, actions[j]) < q(s, best.action)
    {
      assert f(stateActions[j]) < f(stateActions[k]);
    }
  }

  /** Conversely, an action that is the first maximum of `actions` is the
      one the greedy policy returns. */
  lemma GreedyIsFirstMax(q: (State, int) -> real, actions: seq<int>, s: State, k: nat)
    requires k < |actions|
    requires forall j :: 0 <= j < |actions| ==> q(s, actions[j]) <= q(s, actions[k])
    requires forall j :: 0 <= j < k ==> q(s, actions[j]) < q(s, actions[k])
    ensures GreedyAction(q, actions, s) == Ok(actions[k])
  {
    var stateActions := seq(|actions|, i requires 0 <= i < |actions| => StateAction(s, actions[i]));
    var f := (sa: StateAction) => q(sa.state, sa.action);
    assert IsFirstMax(stateActions, f, k);
    FirstMaxUnique(stateActions, f, k);
  }

  /** `policy(*args)` on one numpy argument. With `A` empty the list of
      state-actions is empty and `max` of it raises before any `hstack`.
      Otherwise `hstack(args + (a,))` joins
      a one-dimensional state with the scalar action; for an argument of
      more than one dimension numpy joins along the second axis, the
      scalar has none, and `hstack` raises. `phi` then unpacks
      `position, speed, action`, which needs a pair. The answer is the
      chosen action, laid out as the declared `(1,1)`. */
  function PolicyOnArray(q: (State, int) -> real, actions: seq<int>, a: NdArray<real>): (r: Result<NdArray<int>>)
    ensures r.Ok? <==> a.shape == [2] && |a.data| == 2 && |actions| > 0
    ensures r.Ok? ==> r.value == NdArray([1, 1], [GreedyAction(q, actions, State(a.data[0], a.data[1])).value])
    ensures |actions| == 0 ==> r == Err(EmptySequence)
    ensures |actions| > 0 && |a.shape| != 1 ==> r == Err(ShapeMismatch)
  {
    if |actions| == 0 then Err(EmptySequence)
    else if |a.shape| != 1 then Err(ShapeMismatch)
    else if a.shape != [2] || |a.data| != 2 then Err(UnpackMismatch)
    else
      Ok(NdArray([1, 1], [GreedyAction(q, actions, State(a.data[0], a.data[1])).value]))
  }

  /** `policy` as the function the vectorizer maps. */
  function Policy(q: (State, int) -> real, actions: seq<int>): NdArray<real> -> Result<NdArray<int>>
  {
    a => PolicyOnArray(q, actions, a)
  }

  lemma PolicyMapsShape(q: (State, int) -> real, actions: seq<int>)
    requires |actions| > 0
    ensures MapsShape(Policy(q, actions), [2], [1, 1])
  {
    assert Prod([2]) == 2;
    assert [1, 1][1..] == [1] && [1][1..] == [];
    assert Prod([1, 1]) == 1;
  }

  /** `greedy_policy(omega, phi, A)` on an array of states, with the
      corrected vectorizer: `vpolicy(state).reshape(state.shape[:-1]+(1,))`. */
  function PolicyBatch(q: (State, int) -> real, actions: seq<int>, states: NdArray<real>): (r: Result<NdArray<int>>)
    requires Valid(states)
    ensures states.shape == [2] ==> (r.Ok? <==> |actions| > 0)
    ensures states.shape == [2] && r.Ok? ==>
              r.value == NdArray([1], [GreedyAction(q, actions, State(states.data[0], states.data[1])).value])
  {
    assert Prod([2]) == 2 && Prod([1]) == 1;
    assert [1, 1][1..] == [1] && [1][1..] == [];
    assert Prod([1, 1]) == 1;
    assert SliceTo([2], -1) + [1] == [1];
    var answers :- Vectorize(Policy(q, actions), [2], [1, 1], states);
    Reshape(answers, SliceTo(states.shape, -1) + [1])
  }

  /** The vectorized policy as written, with the batch-of-one shortcut.
      It agrees with `PolicyBatch` on every argument not laid out as a
      batch of states. */
  function PolicyBatchAsWritten(q: (State, int) -> real, actions: seq<int>, states: NdArray<real>): (r: Result<NdArray<int>>)
    requires Valid(states)
    ensures !IsBatch(states.shape, [2]) ==> r == PolicyBatch(q, actions, states)
    ensures IsBatch(states.shape, [2]) && Prod(SliceTo(states.shape, -1)) != 1 ==> r == PolicyBatch(q, actions, states)
  {
    assert IsBatch(states.shape, [2]) ==> Prod(states.shape) == Prod(SliceTo(states.shape, -1)) * 2 by {
      if IsBatch(states.shape, [2]) {
        var outer := SliceTo(states.shape, -1);
        assert states.shape == outer + [2];
        ProdAppend(outer, [2]);
        assert Prod([2]) == 2;
      }
    }
    var answers :- NonScalarVectorize(Policy(q, actions), [2], [1, 1], states);
    Reshape(answers, SliceTo(states.shape, -1) + [1])
  }

  /** Before the reshape: on states of shape `outer + (2,)` the vectorized
      policy answers in shape `outer + (1,1)`, entry `k` being the greedy
      action of the k-th state. */
  lemma VectorizedPolicyPerState(q: (State, int) -> real, actions: seq<int>, outer: seq<nat>, data: seq<real>)
    requires |actions| > 0 && |outer| > 0 && |data| == Prod(outer + [2])
    ensures var r := Vectorize(Policy(q, actions), [2], [1, 1], NdArray(outer + [2], data));
            var states := Chunks(data, 2);
            && r.Ok? && r.value.shape == outer + [1, 1]
            && |states| == Prod(outer) && |r.value.data| == Prod(outer)
            && forall k :: 0 <= k < Prod(outer) ==>
                 GreedyAction(q, actions, State(states[k][0], states[k][1])) == Ok(r.value.data[k])
  {
    var f := Policy(q, actions);
    PolicyMapsShape(q, actions);
    assert Prod([2]) == 2;
    assert [1, 1][1..] == [1] && [1][1..] == [];
    assert Prod([1, 1]) == 1;
    VectorizeBatch(f, [2], [1, 1], outer, data);
    var arg := NdArray(outer + [2], data);
    var v := Vectorize(f, [2], [1, 1], arg).value;
    var slices := InputSlices(arg, [2]);
    var n := Prod(outer);
    ProdAppend(outer, [1, 1]);
    assert |v.data| == n;
    ConcatOfChunks(v.data, 1, n);
    forall k | 0 <= k < n
      ensures GreedyAction(q, actions, State(Chunks(data, 2)[k][0], Chunks(data, 2)[k][1])) == Ok(v.data[k])
    {
      assert slices[k] == NdArray([2], Chunks(data, 2)[k]);
      assert f(slices[k]) == Ok(NdArray([1, 1], Chunks(v.data, 1)[k]));
      ConcatIndex(Chunks(v.data, 1), 1, k, 0);
    }
  }

  /** On states of shape `outer + (2,)`, entry `k` of the policy's answer
      is the greedy action of the k-th state, and the answer has shape
      `outer + (1,)`. */
  lemma PolicyBatchPerState(q: (State, int) -> real, actions: seq<int>, outer: seq<nat>, data: seq<real>)
    requires |actions| > 0 && |outer| > 0 && |data| == Prod(outer + [2])
    ensures var r := PolicyBatch(q, actions, NdArray(outer + [2], data));
            var states := Chunks(data, 2);
            && r.Ok? && r.value.shape == outer + [1]
            && |states| == Prod(outer) && |r.value.data| == Prod(outer)
            && forall k :: 0 <= k < Prod(outer) ==>
                 GreedyAction(q, actions, State(states[k][0], states[k][1])) == Ok(r.value.data[k])
  {
    var states := NdArray(outer + [2], data);
    VectorizedPolicyPerState(q, actions, outer, data);
    var answers := Vectorize(Policy(q, actions), [2], [1, 1], states).value;
    assert Prod(outer + [1]) == Prod(outer) by {
      ProdAppend(outer, [1]);
      assert Prod([1]) == 1;
    }
    assert |answers.data| == Prod(outer + [1]);
    assert SliceTo(outer + [2], -1) == outer;
    PolicyBatchReshapes(q, actions, states);
    assert Reshape(answers, outer + [1]) == Ok(NdArray(outer + [1], answers.data));
  }

  /** When the vectorized policy answers, `PolicyBatch` is its answer
      reshaped to `state.shape[:-1] + (1,)`. */
  lemma PolicyBatchReshapes(q: (State, int) -> real, actions: seq<int>, states: NdArray<real>)
    requires Valid(states)
    ensures var answers := Vectorize(Policy(q, actions), [2], [1, 1], states);
            answers.Ok? ==> PolicyBatch(q, actions, states) == Reshape(answers.value, SliceTo(states.shape, -1) + [1])
  {
  }

  /** As written, one state given as a batch of one (shape `(1,2)`) reaches
      `policy` whole, and `hstack` refuses it. */
  lemma PolicyBatchOfOneFails(q: (State, int) -> real, actions: seq<int>, p: real, v: real)
    ensures PolicyBatchAsWritten(q, actions, NdArray([1, 2], [p, v]))
            == Err(if |actions| == 0 then EmptySequence else ShapeMismatch)
  {
    BatchOfOneGoesWhole(Policy(q, actions), [2], [1, 1], [p, v]);
    assert [1] + [2] == [1, 2];
  }

  /** With the corrected vectorizer the batch of one gets its greedy
      action, in shape `(1,1)`. */
  lemma PolicyBatchOfOneCorrected(q: (State, int) -> real, actions: seq<int>, p: real, v: real)
    requires |actions| > 0
    ensures PolicyBatch(q, actions, NdArray([1, 2], [p, v]))
            == Ok(NdArray([1, 1], [GreedyAction(q, actions, State(p, v)).value]))
  {
    assert [1] + [2] == [1, 2];
    assert [1, 2][1..] == [2] && [2][1..] == [];
    assert Prod([1]) == 1 && Prod([1, 2]) == 2;
    PolicyBatchPerState(q, actions, [1], [p, v]);
    assert [p, v][..2] == [p, v] && [p, v][2..] == [];
    assert Chunks([p, v], 2) == [[p, v]];
    var r := PolicyBatch(q, actions, NdArray([1, 2], [p, v])).value;
    assert [1] + [1] == [1, 1];
    assert r.data == [r.data[0]];
  }
}

=== FILE: gridworld.dfy ===
/** The one-hot feature maps of GridWorld/plot.c. A state is a grid cell
    `(x, y)` with 1-based coordinates, an action is 1 to 4. The index
    arithmetic is C `unsigned int` arithmetic, which wraps modulo 2^32.
    GRID_WIDTH and GRID_HEIGHT are defined in GridWorld.h, which is not
    part of this model; they are the fields of `Grid`. */
module GridWorld {
  import opened Wrappers
  import Arith

  const U32: int := 0x1_0000_0000
  const ActionCount: nat := 4

  datatype Grid = Grid(width: nat, height: nat)

  /** The grid's index space fits an `unsigned int`. */
  predicate Fits(g: Grid)
  {
    0 < g.width && 0 < g.height && g.height * g.width * ActionCount < U32
  }

  /** `g_iK = GRID_HEIGHT*GRID_WIDTH*4`, the dimension of phi. */
  function PhiDim(g: Grid): (d: nat)
    ensures d < U32
    ensures Fits(g) ==> d == g.height * g.width * ActionCount
  {
    (g.height * g.width * ActionCount) % U32
  }

  /** `g_iP = GRID_HEIGHT*GRID_WIDTH`, the dimension of psi. */
  function PsiDim(g: Grid): (d: nat)
    ensures d < U32
    ensures Fits(g) ==> d == g.height * g.width && d * ActionCount == PhiDim(g)
  {
    assert Fits(g) ==> g.height * g.width <= g.height * g.width * ActionCount by {
      if Fits(g) { Arith.MulLeMul(1, ActionCount, g.height * g.width); }
    }
    (g.height * g.width) % U32
  }

  /** For an in-range state-action the index expressions of `phi` and
      `psi` stay within the grid's index space, so nothing wraps. */
  lemma IndexArithmetic(g: Grid, x: nat, y: nat, a: nat)
    requires Fits(g) && InRange(g, x, y, a)
    ensures var cell := (y - 1) * g.width + (x - 1);
            && 0 <= cell < g.height * g.width <= g.height * g.width * ActionCount
            && (y - 1) * g.width * ActionCount + (x - 1) * ActionCount + a - 1 == cell * ActionCount + (a - 1)
            && 0 <= cell * ActionCount + (a - 1) < g.height * g.width * ActionCount
  {
    var cell := (y - 1) * g.width + (x - 1);
    Arith.RowMajorBelow(y - 1, x - 1, g.height, g.width);
    Arith.RowMajorBelow(cell, a - 1, g.height * g.width, ActionCount);
    Arith.MulLeMul(1, ActionCount, g.height * g.width);
    assert (y - 1) * g.width * ActionCount + (x - 1) * ActionCount + a - 1 == cell * ActionCount + (a - 1);
  }

  /** The index `phi` computes, `(y-1)*GRID_WIDTH*4 + (x-1)*4 + a-1`, as an
      `unsigned int`. */
  function PhiIndex(g: Grid, x: nat, y: nat, a: nat): (k: nat)
    ensures k < U32
    ensures Fits(g) && InRange(g, x, y, a) ==>
              k == ((y - 1) * g.width + (x - 1)) * ActionCount + (a - 1)
              && k < g.height * g.width * ActionCount
  {
    var e := (y - 1) * g.width * ActionCount + (x - 1) * ActionCount + a - 1;
    assert Fits(g) && InRange(g, x, y, a) ==>
             e == ((y - 1) * g.width + (x - 1)) * ActionCount + (a - 1)
             && 0 <= e < g.height * g.width * ActionCount by {
      if Fits(g) && InRange(g, x, y, a) { IndexArithmetic(g, x, y, a); }
    }
    e % U32
  }

  /** The index `psi` computes, `(y-1)*GRID_WIDTH + (x-1)`, as an
      `unsigned int`. */
  function PsiIndex(g: Grid, x: nat, y: nat): (k: nat)
    ensures k < U32
    ensures Fits(g) && InGrid(g, x, y) ==> k == (y - 1) * g.width + (x - 1) && k < g.height * g.width
  {
    var e := (y - 1) * g.width + (x - 1);
    assert Fits(g) && InGrid(g, x, y) ==> 0 <= e < g.height * g.width by {
      if Fits(g) && InGrid(g, x, y) { IndexArithmetic(g, x, y, 1); }
    }
    e % U32
  }

  /** A column of `n` zeros (`gsl_matrix_calloc`) with 1.0 at `k`. */
  function OneHot(n: nat, k: nat): (v: seq<real>)
    requires k < n
    ensures |v| == n
    ensures v[k] == 1.0 && forall i :: 0 <= i < n && i != k ==> v[i] == 0.0
  {
    seq(n, i requires 0 <= i < n => if i == k then 1.0 else 0.0)
  }

  /** `phi(sa)`. `gsl_matrix_set` refuses an index outside the column. */
  function Phi(g: Grid, x: nat, y: nat, a: nat): (r: Result<seq<real>>)
    ensures r.Ok? <==> PhiIndex(g, x, y, a) < PhiDim(g)
    ensures r.Err? ==> r.error == OutOfRange
  {
    var k := PhiIndex(g, x, y, a);
    if k < PhiDim(g) then Ok(OneHot(PhiDim(g), k)) else Err(OutOfRange)
  }

  /** `psi(s)`. */
  function Psi(g: Grid, x: nat, y: nat): (r: Result<seq<real>>)
    ensures r.Ok? <==> PsiIndex(g, x, y) < PsiDim(g)
    ensures r.Err? ==> r.error == OutOfRange
  {
    var k := PsiIndex(g, x, y);
    if k < PsiDim(g) then Ok(OneHot(PsiDim(g), k)) else Err(OutOfRange)
  }

  /** The cell `initial_state` returns, `(1.0, 1.0)`. */
  function InitialState(): (c: (nat, nat))
    ensures forall g: Grid :: Fits(g) ==> InGrid(g, c.0, c.1) && PsiIndex(g, c.0, c.1) == 0
  {
    (1, 1)
  }

  predicate InGrid(g: Grid, x: nat, y: nat)
  {
    1 <= x <= g.width && 1 <= y <= g.height
  }

  predicate InRange(g: Grid, x: nat, y: nat, a: nat)
  {
    InGrid(g, x, y) && 1 <= a <= ActionCount
  }

  /** A vector with exactly one non-zero entry, 1.0 at `k`. */
  predicate IsOneHotAt(v: seq<real>, k: nat)
  {
    k < |v| && v[k] == 1.0 && forall i :: 0 <= i < |v| && i != k ==> v[i] == 0.0
  }

  /** For an in-grid cell the psi index is the row-major cell number, below
      `g_iP`, without wrap-around, and `psi` is one-hot there. */
  lemma PsiInRange(g: Grid, x: nat, y: nat)
    requires Fits(g) && InGrid(g, x, y)
    ensures PsiIndex(g, x, y) == (y - 1) * g.width + (x - 1)
    ensures PsiIndex(g, x, y) < PsiDim(g) == g.height * g.width
    ensures Psi(g, x, y).Ok? && IsOneHotAt(Psi(g, x, y).value, PsiIndex(g, x, y))
  {
    Arith.RowMajorBelow(y - 1, x - 1, g.height, g.width);
    Arith.MulLeMul(1, ActionCount, g.height * g.width);
  }

  /** For an in-range state-action the phi index is below `g_iK`, without
      wrap-around, and `phi` is one-hot there. */
  lemma PhiInRange(g: Grid, x: nat, y: nat, a: nat)
    requires Fits(g) && InRange(g, x, y, a)
    ensures PhiIndex(g, x, y, a) == ((y - 1) * g.width + (x - 1)) * ActionCount + (a - 1)
    ensures PhiIndex(g, x, y, a) < PhiDim(g) == g.height * g.width * ActionCount
    ensures Phi(g, x, y, a).Ok? && IsOneHotAt(Phi(g, x, y, a).value, PhiIndex(g, x, y, a))
  {
    var cell := (y - 1) * g.width + (x - 1);
    Arith.RowMajorBelow(y - 1, x - 1, g.height, g.width);
    Arith.RowMajorBelow(cell, a - 1, g.height * g.width, ActionCount);
    assert (y - 1) * g.width * ActionCount + (x - 1) * ActionCount + a - 1 == cell * ActionCount + (a - 1);
  }

  /** Phi's action blocks nest inside psi's cell order: dropping the action
      from a phi index gives the psi index of the same cell. */
  lemma PhiBlockIsPsiIndex(g: Grid, x: nat, y: nat, a: nat)
    requires Fits(g) && InRange(g, x, y, a)
    ensures PhiIndex(g, x, y, a) / ActionCount == PsiIndex(g, x, y)
    ensures PhiIndex(g, x, y, a) % ActionCount == a - 1
  {
    PhiInRange(g, x, y, a);
    PsiInRange(g, x, y);
    Arith.DivModUnique(PhiIndex(g, x, y, a), ActionCount, PsiIndex(g, x, y), a - 1);
  }

  /** The state-action a phi index stands for. */
  function DecodePhi(g: Grid, k: nat): (nat, nat, nat)
    requires g.width > 0
  {
    ((k / ActionCount) % g.width + 1, (k / ActionCount) / g.width + 1, k % ActionCount + 1)
  }

  /** The digits of `((row * width) + col) * 4 + act` in the mixed radix
      (4, width): the arithmetic behind decoding a phi index. */
  lemma RowMajorDigits(width: nat, row: nat, col: nat, act: nat)
    requires col < width && act < ActionCount
    ensures var k := (row * width + col) * ActionCount + act;
            && k % ActionCount == act && k / ActionCount == row * width + col
            && (k / ActionCount) % width == col && (k / ActionCount) / width == row
            && k / (ActionCount * width) == row
  {
    var cell := row * width + col;
    var k := cell * ActionCount + act;
    Arith.DivModUnique(k, ActionCount, cell, act);
    Arith.DivModUnique(cell, width, row, col);
    var r := col * ActionCount + act;
    Arith.RowMajorBelow(col, act, width, ActionCount);
    assert k == row * (ActionCount * width) + r;
    Arith.DivModUnique(k, ActionCount * width, row, r);
  }

  /** Decoding a phi index gives back the cell and the action:
      `index mod 4 = a-1`, `(index div 4) mod W = x-1`, `index div 4W = y-1`. */
  lemma PhiIndexDecodes(g: Grid, x: nat, y: nat, a: nat)
    requires Fits(g) && InRange(g, x, y, a)
    ensures DecodePhi(g, PhiIndex(g, x, y, a)) == (x, y, a)
    ensures PhiIndex(g, x, y, a) / (ActionCount * g.width) == y - 1
  {
    RowMajorDigits(g.width, y - 1, x - 1, a - 1);
  }

  /** Every index of phi's column is the index of one in-range
      state-action, so phi's encoding is a bijection. */
  lemma PhiIndexOnto(g: Grid, k: nat)
    requires Fits(g) && k < PhiDim(g)
    ensures var (x, y, a) := DecodePhi(g, k);
            InRange(g, x, y, a) && PhiIndex(g, x, y, a) == k
  {
    var (x, y, a) := DecodePhi(g, k);
    var cell := k / ActionCount;
    assert PhiDim(g) == g.height * g.width * ActionCount;
    Arith.DivBelow(k, ActionCount, g.height * g.width);
    Arith.DivBelow(cell, g.width, g.height);
    assert k == cell * ActionCount + (a - 1);
    assert cell == (y - 1) * g.width + (x - 1);
    PhiInRange(g, x, y, a);
  }

  /** Distinct in-range state-actions have distinct phi indices. */
  lemma PhiIndexInjective(g: Grid, x: nat, y: nat, a: nat, x': nat, y': nat, a': nat)
    requires Fits(g) && InRange(g, x, y, a) && InRange(g, x', y', a')
    requires PhiIndex(g, x, y, a) == PhiIndex(g, x', y', a')
    ensures x == x' && y == y' && a == a'
  {
    PhiIndexDecodes(g, x, y, a);
    PhiIndexDecodes(g, x', y', a');
  }

  /** `initial_state` is the corner cell (1,1), inside every grid, and its
      psi index is 0. */
  lemma InitialStateIsFirstCell(g: Grid)
    requires Fits(g)
    ensures InGrid(g, InitialState().0, InitialState().1)
    ensures PsiIndex(g, InitialState().0, InitialState().1) == 0
    ensures Psi(g, InitialState().0, InitialState().1).Ok?
  {
    PsiInRange(g, 1, 1);
  }

  /** Column 0 is outside the grid and `x-1` wraps around to 2^32-1. In the
      first row the index lands beyond the column and `phi` is refused; in
      any later row it aliases the last cell of the row above. */
  lemma PhiColumnZero(g: Grid, y: nat, a: nat)
    requires Fits(g) && 1 <= y <= g.height && 1 <= a <= ActionCount
    ensures y == 1 ==> Phi(g, 0, y, a) == Err(OutOfRange)
    ensures y > 1 ==> Phi(g, 0, y, a) == Phi(g, g.width, y - 1, a) && Phi(g, 0, y, a).Ok?
  {
    var e := (y - 1) * g.width * ActionCount + (0 - 1) * ActionCount + a - 1;
    Arith.MulLeMul(1, ActionCount, g.height * g.width);
    if y == 1 {
      assert e < 0;
      assert PhiIndex(g, 0, y, a) == e + U32;
    } else {
      assert e == (y - 2) * g.width * ActionCount + (g.width - 1) * ActionCount + a - 1;
      PhiInRange(g, g.width, y - 1, a);
    }
  }
}

=== FILE: lspi.dfy ===
/** The control flow of `lspi` in Exp1.py. One LSTD-Q solve against the
    greedy policy of a weight vector is the parameter `solve` (the sample
    data, `phi` and the action set are fixed inside it), and
    `norm(omega_dash - omega)` is the parameter `distance`. */
module Lspi {

  function Zeros(n: nat): (z: seq<real>)
    ensures |z| == n && forall i :: 0 <= i < n ==> z[i] == 0.0
  {
    seq(n, i requires 0 <= i < n => 0.0)
  }

  /** The weights after `k` policy-iteration steps from `omega0`: each step
      solves LSTD-Q for the policy greedy with respect to the previous
      weights. */
  function Iterate(solve: seq<real> -> seq<real>, omega0: seq<real>, k: nat): seq<real>
  {
    if k == 0 then omega0 else solve(Iterate(solve, omega0, k - 1))
  }

  /** `lspi(data, ..., epsilon, iterations_max)`. The loop runs at least
      once and stops after the first iteration whose counter exceeds
      `iterations_max` or whose change is below `epsilon`. The policy
      returned is greedy for the last loop weights, `policyOmega`; the
      weights returned come from one further solve for that policy. */
  method Lspi(solve: seq<real> -> seq<real>, distance: (seq<real>, seq<real>) -> real,
              phiDim: nat, epsilon: real, iterationsMax: nat)
    returns (policyOmega: seq<real>, omega: seq<real>, iterations: nat)
    ensures 1 <= iterations <= iterationsMax + 1
    ensures policyOmega == Iterate(solve, Zeros(phiDim), iterations)
    ensures omega == solve(policyOmega)
    ensures iterations > iterationsMax
            || distance(Iterate(solve, Zeros(phiDim), iterations),
                        Iterate(solve, Zeros(phiDim), iterations - 1)) < epsilon
    ensures forall j :: 1 <= j < iterations ==>
              distance(Iterate(solve, Zeros(phiDim), j), Iterate(solve, Zeros(phiDim), j - 1)) >= epsilon
  {
    var omega0 := Zeros(phiDim);
    iterations := 0;
    var current := omega0;
    var policyWeights := current;
    var cont := true;
    while cont
      invariant iterations <= iterationsMax + 1
      invariant cont ==> iterations <= iterationsMax
      invariant !cont ==> iterations >= 1
      invariant current == Iterate(solve, omega0, iterations) && policyWeights == current
      invariant !cont ==> iterations > iterationsMax
                          || distance(Iterate(solve, omega0, iterations), Iterate(solve, omega0, iterations - 1)) < epsilon
      invariant forall j :: 1 <= j <= iterations && (cont || j < iterations) ==>
                  distance(Iterate(solve, omega0, j), Iterate(solve, omega0, j - 1)) >= epsilon
      decreases iterationsMax + 1 - iterations + (if cont then 1 else 0)
    {
      var omegaDash := solve(policyWeights);
      var diff := distance(omegaDash, current);
      current := omegaDash;
      policyWeights := current;
      iterations := iterations + 1;
      if iterations > iterationsMax || diff < epsilon {
        cont := false;
      }
    }
    omega := solve(policyWeights);
    policyOmega := policyWeights;
  }
}

=== FILE: pendulum.dfy ===
/** The inverted-pendulum pieces of Exp1.py that are pure index and
    comparison logic: the feature maps `psi` and `phi` and the sparse
    reward. The Gaussian kernel `exp(-d/2)` is a parameter. */
module Pendulum {
  import opened Wrappers
  import opened Shapes

  /** numpy's `pi`: the double nearest to pi, written out exactly. */
  const Pi: real := 3.141592653589793115997963468544185161590576171875

  const ActionSpace: seq<int> := [0, 1, 2]
  const PsiWidth: nat := 10
  const PhiWidth: nat := 30

  datatype State = State(position: real, speed: real)

  function Sq(x: real): real { x * x }

  function Abs(x: real): real { if x < 0.0 then -x else x }

  /** numpy's `linspace(lo, hi, n)`: n evenly spaced points, ends included. */
  function Linspace(lo: real, hi: real, n: nat): (pts: seq<real>)
    requires n >= 2
    ensures |pts| == n
  {
    seq(n, k requires 0 <= k < n => lo + (k as real) * (hi - lo) / ((n - 1) as real))
  }

  function PositionCentres(): seq<real> { Linspace(-Pi / 4.0, Pi / 4.0, 3) }

  function SpeedCentres(): seq<real> { Linspace(-1.0, 1.0, 3) }

  /** The centres of the radial basis functions are -pi/4, 0, pi/4 in
      position and -1, 0, 1 in speed. */
  lemma CentreValues()
    ensures PositionCentres() == [-Pi / 4.0, 0.0, Pi / 4.0]
    ensures SpeedCentres() == [-1.0, 0.0, 1.0]
  {
  }

  /** Squared distance of a state to centre `(i, j)` of the grid. */
  function SqDist(s: State, i: nat, j: nat): real
    requires i < 3 && j < 3
  {
    Sq(s.position - PositionCentres()[i]) + Sq(s.speed - SpeedCentres()[j])
  }

  /** `inverted_pendulum_single_psi`: a bias slot holding 1.0, then one
      kernel value per centre, position centre in the outer loop and speed
      centre in the inner loop. */
  function Psi(s: State, kernel: real -> real): (v: seq<real>)
    ensures |v| == PsiWidth && v[0] == 1.0
    ensures forall i, j :: 0 <= i < 3 && 0 <= j < 3 ==> v[1 + 3 * i + j] == kernel(SqDist(s, i, j))
  {
    var grid := seq(3, i requires 0 <= i < 3 => seq(3, j requires 0 <= j < 3 => kernel(SqDist(s, i, j))));
    PsiSlots(grid, s, kernel);
    [1.0] + Concat(grid)
  }

  lemma PsiSlots(grid: seq<seq<real>>, s: State, kernel: real -> real)
    requires |grid| == 3 && forall i :: 0 <= i < 3 ==> |grid[i]| == 3
    requires forall i, j :: 0 <= i < 3 && 0 <= j < 3 ==> grid[i][j] == kernel(SqDist(s, i, j))
    ensures |Concat(grid)| == 9
    ensures forall i, j :: 0 <= i < 3 && 0 <= j < 3 ==> Concat(grid)[3 * i + j] == kernel(SqDist(s, i, j))
  {
    ConcatIndex(grid, 3, 0, 0);
    forall i, j | 0 <= i < 3 && 0 <= j < 3
      ensures 3 * i + j < |Concat(grid)| && Concat(grid)[3 * i + j] == kernel(SqDist(s, i, j))
    {
      ConcatIndex(grid, 3, i, j);
    }
  }

  /** Python's normalisation of a slice bound on a sequence of length
      `len`: a negative bound counts from the end, then it is clamped. */
  function SliceBound(b: int, len: nat): nat
  {
    if b < 0 then (if b + len < 0 then 0 else b + len)
    else if b > len then len
    else b
  }

  /** `inverted_pendulum_single_phi`: psi written into the slice
      `answer[action*10 : action*10+10]` of thirty zeros. numpy refuses the
      assignment unless that slice holds exactly ten slots. */
  function Phi(s: State, action: int, kernel: real -> real): (r: Result<seq<real>>)
    ensures r.Ok? <==> action in {-3, -2, 0, 1, 2}
    ensures r.Ok? ==> |r.value| == PhiWidth
    ensures r.Ok? ==> forall t :: 0 <= t < PsiWidth ==> r.value[(action % 3) * 10 + t] == Psi(s, kernel)[t]
    ensures r.Ok? ==> forall m :: 0 <= m < PhiWidth && !((action % 3) * 10 <= m < (action % 3) * 10 + 10) ==> r.value[m] == 0.0
  {
    var lo := SliceBound(action * 10, PhiWidth);
    var hi := SliceBound(action * 10 + 10, PhiWidth);
    if lo + PsiWidth != hi then Err(ShapeMismatch)
    else
      var psi := Psi(s, kernel);
      Ok(seq(PhiWidth, m requires 0 <= m < PhiWidth => if lo <= m < hi then psi[m - lo] else 0.0))
  }

  /** Index of the first non-zero entry, if any. */
  function FirstNonZero(v: seq<real>): (r: Option<nat>)
    ensures r.Some? ==> r.value < |v| && v[r.value] != 0.0 && forall m :: 0 <= m < r.value ==> v[m] == 0.0
    ensures r.None? ==> forall m :: 0 <= m < |v| ==> v[m] == 0.0
  {
    if |v| == 0 then None
    else if v[0] != 0.0 then Some(0)
    else match FirstNonZero(v[1..])
      case None => None
      case Some(k) => Some(k + 1)
  }

  /** The action a feature vector encodes: the block of its first non-zero
      entry. */
  function RecoverAction(v: seq<real>): Option<int>
  {
    match FirstNonZero(v)
    case None => None
    case Some(k) => Some(k / 10)
  }

  /** For every action of the action space the bias slot 1.0 lands at
      `action*10`, everything before it is zero, so the action is
      recovered from the feature vector. */
  lemma PhiRecoversAction(s: State, action: int, kernel: real -> real)
    requires action in ActionSpace
    ensures Phi(s, action, kernel).Ok?
    ensures Phi(s, action, kernel).value[action * 10] == 1.0
    ensures FirstNonZero(Phi(s, action, kernel).value) == Some(action * 10)
    ensures RecoverAction(Phi(s, action, kernel).value) == Some(action)
  {
    var v := Phi(s, action, kernel).value;
    assert action % 3 == action;
    assert v[action * 10 + 0] == Psi(s, kernel)[0];
  }

  /** Different actions give different feature vectors. */
  lemma PhiInjective(s: State, s': State, a: int, b: int, kernel: real -> real)
    requires a in ActionSpace && b in ActionSpace
    ensures Phi(s, a, kernel) == Phi(s', b, kernel) ==> a == b
  {
    PhiRecoversAction(s, a, kernel);
    PhiRecoversAction(s', b, kernel);
  }

  /** Python's negative slice bounds: actions -3 and -2 are accepted and
      encoded like actions 0 and 1. */
  lemma PhiNegativeActionsWrap(s: State, action: int, kernel: real -> real)
    requires action == -3 || action == -2
    ensures Phi(s, action, kernel) == Phi(s, action + 3, kernel)
  {
  }

  /** `inverted_pendulum_single_reward`: the last two entries are unpacked
      as (position, speed); the reward is -1 once the pendulum is past the
      horizontal and 0 otherwise. */
  function Reward(sas: seq<real>): (r: Result<real>)
    ensures r.Ok? <==> |sas| >= 2
    ensures r.Ok? ==> (r.value == -1.0 <==> Abs(sas[|sas| - 2]) > Pi / 2.0)
    ensures r.Ok? ==> (r.value == 0.0 <==> Abs(sas[|sas| - 2]) <= Pi / 2.0)
  {
    var last := sas[if |sas| >= 2 then |sas| - 2 else 0..];
    if |last| != 2 then Err(UnpackMismatch)
    else
      var position, speed := last[0], last[1];
      if Abs(position) > Pi / 2.0 then Ok(-1.0) else Ok(0.0)
  }

  /** `inverted_pendulum_single_reward` as the function the vectorizer
      maps. Its answer is a Python float, a 0-dimensional array here. */
  function RewardOnArray(a: NdArray<real>): (r: Result<NdArray<real>>)
    ensures r.Ok? <==> |a.data| >= 2
    ensures r.Ok? ==> r.value == NdArray([], [Reward(a.data).value])
  {
    var v :- Reward(a.data);
    Ok(NdArray([], [v]))
  }

  /** On a flat vector whose length is not 5 to 9, the slicing path of
      `non_scalar_vectorize(single_reward, (5,), (1,1))` fails: the
      reshape into rows of 5 fails, or the stacked answers, none or two
      and more, do not fit the `(1,1,1)` the path reshapes them to. */
  lemma RewardSlicesFail(sas: seq<real>)
    requires |sas| / 5 != 1
    ensures VectorizeSlices(RewardOnArray, [5], [1, 1], NdArray([|sas|], sas)).Err?
  {
    var n := |sas|;
    var arg := NdArray([n], sas);
    assert [n][1..] == [] && [5][1..] == [];
    assert Prod([n]) == n && Prod([5]) == 5;
    var k := n / 5;
    if k * 5 == n {
      ChunksCount(sas, 5, k);
      var slices := InputSlices(arg, [5]);
      var answers := MapAll(RewardOnArray, slices);
      if answers.Ok? {
        var stacked := Stack(answers.value);
        assert forall i :: 0 <= i < k ==> answers.value[i].shape == [] && Valid(answers.value[i]) by {
          forall i | 0 <= i < k
            ensures answers.value[i].shape == [] && Valid(answers.value[i])
          {
            assert RewardOnArray(slices[i]) == Ok(answers.value[i]);
          }
        }
        assert Prod([]) == 1;
        if k > 0 {
          ProdAppend([k], []);
          assert [k] + [] == [k];
        }
        assert stacked.Ok? && |stacked.value.data| == k;
        assert OuterShape([n], [5]) + [1, 1] == [1, 1, 1];
        assert [1, 1, 1][1..] == [1, 1] && [1, 1][1..] == [1] && [1][1..] == [];
        assert Prod([1, 1, 1]) == 1;
      }
    }
  }

  /** `inverted_pendulum_reward(sas)` on a flat vector:
      `squeeze(non_scalar_vectorize(single_reward, (5,), (1,1))(sas))`. The
      single reward sees the vector whole exactly when `len(sas) // 5 == 1`;
      every other length fails, so the reward exists only for 5 to 9
      components, and is then the single reward. */
  function VectorizedReward(sas: seq<real>): (r: Result<real>)
    ensures r.Ok? <==> 5 <= |sas| <= 9
    ensures r.Ok? ==> r == Reward(sas)
  {
    var arg := NdArray([|sas|], sas);
    assert [|sas|][1..] == [] && [5][1..] == [];
    assert Prod([|sas|]) == |sas| && Prod([5]) == 5;
    assert |sas| / 5 != 1 ==> VectorizeSlices(RewardOnArray, [5], [1, 1], arg).Err? by {
      if |sas| / 5 != 1 { RewardSlicesFail(sas); }
    }
    var answer :- NonScalarVectorize(RewardOnArray, [5], [1, 1], arg);
    // `squeeze` unwraps the one element of a successful answer.
    if |answer.data| == 1 then Ok(answer.data[0]) else Err(ShapeMismatch)
  }

  /** At the horizontal itself, `abs(position) > pi/2.` is false on both
      sides: halving the double `pi` is exact, so the reward there is 0. */
  lemma RewardAtHorizontal(prefix: seq<real>, speed: real)
    ensures Reward(prefix + [Pi / 2.0, speed]) == Ok(0.0)
    ensures Reward(prefix + [-Pi / 2.0, speed]) == Ok(0.0)
    ensures Pi / 2.0 == 1.5707963267948965579989817342720925807952880859375
  {
    assert (prefix + [Pi / 2.0, speed])[|prefix| + 2 - 2] == Pi / 2.0;
    assert (prefix + [-Pi / 2.0, speed])[|prefix| + 2 - 2] == -Pi / 2.0;
  }

  /** The reward reads only the last two entries. */
  lemma RewardReadsLastTwo(a: seq<real>, b: seq<real>, tail: seq<real>)
    requires |tail| == 2
    ensures Reward(a + tail) == Reward(b + tail)
  {
    assert (a + tail)[|a + tail| - 2] == tail[0];
    assert (b + tail)[|b + tail| - 2] == tail[0];
  }

  /** `inverted_pendulum_single_psi` applied to a numpy argument. The
      unpacking `position, speed = state` iterates over the first axis, so
      a first axis of any length but 2 is an unpacking error. Each kernel
      value then has the shape of the rows, and storing it in the one-slot
      row `answer[index]` works only when a row holds exactly one element:
      `(2,)` and `(2,1)` are accepted, `(2,k)` with `k != 1` is refused. */
  function PsiOnArray(kernel: real -> real, a: NdArray<real>): (r: Result<NdArray<real>>)
    ensures r.Ok? <==> |a.shape| > 0 && a.shape[0] == 2 && Prod(a.shape[1..]) == 1 && |a.data| == 2
    ensures r.Ok? ==> r.value == NdArray([PsiWidth, 1], Psi(State(a.data[0], a.data[1]), kernel))
    ensures (|a.shape| == 0 || a.shape[0] != 2) ==> r == Err(UnpackMismatch)
  {
    if |a.shape| == 0 || a.shape[0] != 2 then Err(UnpackMismatch)
    else if Prod(a.shape[1..]) != 1 || |a.data| != 2 then Err(ShapeMismatch)
    else Ok(NdArray([PsiWidth, 1], Psi(State(a.data[0], a.data[1]), kernel)))
  }

  /** `inverted_pendulum_psi`: `psi` under the vectorizer (the corrected
      one; the shortcut as written is `NonScalarVectorize`). */
  function PsiBatch(kernel: real -> real, states: NdArray<real>): (r: Result<NdArray<real>>)
    requires Valid(states)
    ensures states.shape == [2] ==>
              r == Ok(NdArray([PsiWidth, 1], Psi(State(states.data[0], states.data[1]), kernel)))
  {
    assert Prod([2]) == 2;
    Vectorize(a => PsiOnArray(kernel, a), [2], [PsiWidth, 1], states)
  }

  lemma PsiMapsShape(kernel: real -> real)
    ensures MapsShape(a => PsiOnArray(kernel, a), [2], [PsiWidth, 1])
  {
    assert Prod([2]) == 2;
    assert [PsiWidth, 1][1..] == [1] && [1][1..] == [];
    assert Prod([PsiWidth, 1]) == PsiWidth;
  }

  /** As written, a batch of one state (shape `(1,2)`) reaches `psi`
      unsliced, and the unpacking of its single row fails. */
  lemma PsiBatchOfOneFails(kernel: real -> real, p: real, v: real)
    ensures NonScalarVectorize(a => PsiOnArray(kernel, a), [2], [PsiWidth, 1], NdArray([1, 2], [p, v]))
            == Err(UnpackMismatch)
  {
    BatchOfOneGoesWhole(a => PsiOnArray(kernel, a), [2], [PsiWidth, 1], [p, v]);
    assert [1] + [2] == [1, 2];
  }

  /** With the corrected vectorizer a batch of one state gets the shape
      `(1,10,1)` the documentation promises, holding `psi` of that state. */
  lemma PsiBatchOfOneCorrected(kernel: real -> real, p: real, v: real)
    ensures PsiBatch(kernel, NdArray([1, 2], [p, v]))
            == Ok(NdArray([1, PsiWidth, 1], Psi(State(p, v), kernel)))
  {
    var f := a => PsiOnArray(kernel, a);
    PsiMapsShape(kernel);
    assert [1] + [2] == [1, 2];
    assert Prod([2]) == 2;
    assert [PsiWidth, 1][1..] == [1] && [1][1..] == [];
    assert Prod([PsiWidth, 1]) == PsiWidth;
    BatchOfOneMatchesSingle(f, [2], [PsiWidth, 1], [p, v]);
    assert f(NdArray([2], [p, v])) == Ok(NdArray([PsiWidth, 1], Psi(State(p, v), kernel)));
    assert [1] + [PsiWidth, 1] == [1, PsiWidth, 1];
  }

  /** A single state given as a column `(2,1)` is not a batch: it reaches
      `psi` whole, with and without the correction, and gives `psi` of
      that state. */
  lemma PsiOfColumn(kernel: real -> real, p: real, v: real)
    ensures NonScalarVectorize(a => PsiOnArray(kernel, a), [2], [PsiWidth, 1], NdArray([2, 1], [p, v]))
            == Ok(NdArray([PsiWidth, 1], Psi(State(p, v), kernel)))
    ensures PsiBatch(kernel, NdArray([2, 1], [p, v])) == Ok(NdArray([PsiWidth, 1], Psi(State(p, v), kernel)))
  {
    assert Prod([2]) == 2 && Prod([1]) == 1;
    assert [2, 1][1..] == [1] && [1][1..] == [];
    assert Prod([2, 1]) == 2;
    assert !IsBatch([2, 1], [2]) by {
      assert [2, 1][1..] == [1];
    }
  }

  /** On a batch of states of shape `outer + (2,)`, `psi` is applied to
      each state in order: block `k` of the answer is `psi` of the k-th
      `(position, speed)` pair, and the answer has shape `outer + (10,1)`. */
  lemma PsiBatchPerState(kernel: real -> real, outer: seq<nat>, data: seq<real>)
    requires |outer| > 0 && |data| == Prod(outer + [2])
    ensures var r := PsiBatch(kernel, NdArray(outer + [2], data));
            var states := Chunks(data, 2);
            && r.Ok? && r.value.shape == outer + [PsiWidth, 1]
            && |states| == Prod(outer)
            && |Chunks(r.value.data, PsiWidth)| == Prod(outer)
            && forall k :: 0 <= k < Prod(outer) ==>
                 Chunks(r.value.data, PsiWidth)[k] == Psi(State(states[k][0], states[k][1]), kernel)
  {
    var f := a => PsiOnArray(kernel, a);
    PsiMapsShape(kernel);
    assert Prod([2]) == 2;
    assert [PsiWidth, 1][1..] == [1] && [1][1..] == [];
    assert Prod([PsiWidth, 1]) == PsiWidth;
    VectorizeBatch(f, [2], [PsiWidth, 1], outer, data);
    var arg := NdArray(outer + [2], data);
    var slices := InputSlices(arg, [2]);
    var r := PsiBatch(kernel, arg).value;
    forall k | 0 <= k < Prod(outer)
      ensures Chunks(r.data, PsiWidth)[k] == Psi(State(Chunks(data, 2)[k][0], Chunks(data, 2)[k][1]), kernel)
    {
      assert slices[k] == NdArray([2], Chunks(data, 2)[k]);
      assert f(slices[k]) == Ok(NdArray([PsiWidth, 1], Chunks(r.data, PsiWidth)[k]));
    }
  }
}

=== FILE: performance.dfy ===
/** The imitation criterion of Exp1.py (`imitation_performance`): the mean
    over independent rollouts of the discounted sum `sum(rewards * GAMMAS)`. */
module Performance {
  import opened Rollout

  const Gamma: real := 0.9
  const EvaluationRuns: nat := 100
  const EvaluationLength: nat := 70

  function Pow(g: real, n: nat): real
  {
    if n == 0 then 1.0 else g * Pow(g, n - 1)
  }

  /** The weights `g^from, ..., g^(from + n - 1)`; with `from = 0` this is
      `GAMMAS`. */
  function Discounts(g: real, n: nat, from: nat): (ds: seq<real>)
    ensures |ds| == n
  {
    seq(n, k requires 0 <= k < n => Pow(g, from + k))
  }

  function Dot(u: seq<real>, v: seq<real>): real
    requires |u| == |v|
  {
    if |u| == 0 then 0.0 else u[0] * v[0] + Dot(u[1..], v[1..])
  }

  /** The return by Bellman's recursion: first reward plus the discounted
      return of the rest. */
  function Return(rs: seq<real>, g: real): real
  {
    if |rs| == 0 then 0.0 else rs[0] + g * Return(rs[1..], g)
  }

  lemma {:induction false} DotDiscounts(rs: seq<real>, g: real, from: nat)
    ensures Dot(rs, Discounts(g, |rs|, from)) == Pow(g, from) * Return(rs, g)
  {
    if |rs| > 0 {
      var ds := Discounts(g, |rs|, from);
      assert ds[1..] == Discounts(g, |rs| - 1, from + 1);
      DotDiscounts(rs[1..], g, from + 1);
      assert Pow(g, from + 1) == g * Pow(g, from);
    }
  }

  /** `sum(rewards * GAMMAS)`: each reward weighted by gamma to the power
      of its step index. It is the Bellman return. */
  function DiscountedSum(rs: seq<real>, g: real): (v: real)
    ensures v == Return(rs, g)
  {
    DotDiscounts(rs, g, 0);
    Dot(rs, Discounts(g, |rs|, 0))
  }

  /** `1 + g + ... + g^(n-1)`. */
  function Geometric(g: real, n: nat): real
  {
    if n == 0 then 0.0 else 1.0 + g * Geometric(g, n - 1)
  }

  lemma {:induction false} GeometricClosedForm(g: real, n: nat)
    ensures Geometric(g, n) * (1.0 - g) == 1.0 - Pow(g, n)
  {
    if n > 0 {
      GeometricClosedForm(g, n - 1);
      calc {
        Geometric(g, n) * (1.0 - g);
        (1.0 + g * Geometric(g, n - 1)) * (1.0 - g);
        (1.0 - g) + g * (Geometric(g, n - 1) * (1.0 - g));
        (1.0 - g) + g * (1.0 - Pow(g, n - 1));
      }
    }
  }

  lemma {:induction false} PowBetween(g: real, n: nat)
    requires 0.0 <= g <= 1.0
    ensures 0.0 <= Pow(g, n) <= 1.0
  {
    if n > 0 {
      PowBetween(g, n - 1);
      var p := Pow(g, n - 1);
      assert 0.0 <= g * p;
      assert g * p <= p;
    }
  }

  /** Every weight of `GAMMAS` lies in (0, 1]. */
  lemma GammasInUnitInterval()
    ensures |Discounts(Gamma, EvaluationLength, 0)| == EvaluationLength
    ensures forall k :: 0 <= k < EvaluationLength ==>
              0.0 < Discounts(Gamma, EvaluationLength, 0)[k] <= 1.0
  {
    forall k | 0 <= k < EvaluationLength
      ensures 0.0 < Discounts(Gamma, EvaluationLength, 0)[k] <= 1.0
    {
      PowBetween(Gamma, k);
      PowPositive(Gamma, k);
    }
  }

  predicate RewardsIn(rs: seq<real>)
  {
    forall k :: 0 <= k < |rs| ==> rs[k] == -1.0 || rs[k] == 0.0
  }

  /** With rewards in {-1, 0} the return lies between
      `-(1 + g + ... + g^(n-1))` and 0. */
  lemma {:induction false} ReturnBounds(rs: seq<real>, g: real)
    requires 0.0 <= g && RewardsIn(rs)
    ensures -Geometric(g, |rs|) <= Return(rs, g) <= 0.0
  {
    if |rs| > 0 {
      ReturnBounds(rs[1..], g);
      assert g * Return(rs[1..], g) <= 0.0;
      assert g * Return(rs[1..], g) >= g * -Geometric(g, |rs| - 1);
    }
  }

  /** A trajectory is worth 0 exactly when the pendulum never falls. */
  lemma {:induction false} ReturnZeroIffNoFall(rs: seq<real>, g: real)
    requires 0.0 < g && RewardsIn(rs)
    ensures Return(rs, g) == 0.0 <==> forall k :: 0 <= k < |rs| ==> rs[k] == 0.0
  {
    if |rs| > 0 {
      ReturnZeroIffNoFall(rs[1..], g);
      ReturnBounds(rs[1..], g);
      assert g * Return(rs[1..], g) <= 0.0;
      if Return(rs, g) == 0.0 {
        assert rs[0] == 0.0 && g * Return(rs[1..], g) == 0.0;
        assert Return(rs[1..], g) == 0.0;
        assert forall k :: 0 <= k < |rs| ==> rs[k] == 0.0 by {
          forall k | 0 <= k < |rs| ensures rs[k] == 0.0 {
            if k > 0 { assert rs[k] == rs[1..][k - 1]; }
          }
        }
      }
    }
  }

  /** `traj[:,5]`, the reward column of a trace. */
  function Rewards(rows: seq<Transition>): (rs: seq<real>)
    ensures |rs| == |rows|
  {
    seq(|rows|, i requires 0 <= i < |rows| => rows[i].reward)
  }

  function Sum(xs: seq<real>): real
  {
    if |xs| == 0 then 0.0 else xs[0] + Sum(xs[1..])
  }

  lemma {:induction false} SumBounds(xs: seq<real>, lo: real)
    requires forall k :: 0 <= k < |xs| ==> lo <= xs[k] <= 0.0
    ensures (|xs| as real) * lo <= Sum(xs) <= 0.0
    ensures Sum(xs) == 0.0 <==> forall k :: 0 <= k < |xs| ==> xs[k] == 0.0
  {
    if |xs| > 0 {
      SumBounds(xs[1..], lo);
      assert Sum(xs) == xs[0] + Sum(xs[1..]);
      if Sum(xs) == 0.0 {
        forall k | 0 <= k < |xs| ensures xs[k] == 0.0 {
          if k > 0 { assert xs[k] == xs[1..][k - 1]; }
        }
      }
    }
  }

  /** numpy's `mean`. */
  function Mean(xs: seq<real>): real
    requires |xs| > 0
  {
    Sum(xs) / (|xs| as real)
  }

  /** `sum(traj[:,5]*GAMMAS)`, the discounted value of rollout `k`: the
      return of its reward column. */
  function RolloutValue(rollouts: nat -> Environment, k: nat): (v: real)
    ensures v == Return(Rewards(Trace(rollouts(k), EvaluationLength)), Gamma)
  {
    DiscountedSum(Rewards(Trace(rollouts(k), EvaluationLength)), Gamma)
  }

  /** `imitation_performance(policy)`: the mean discounted value of 100
      rollouts of 70 steps each; rollout `k` runs in `rollouts(k)`, which
      carries the policy and rollout `k`'s random streams. */
  function ImitationPerformance(rollouts: nat -> Environment): (v: real)
    ensures v == Mean(seq(EvaluationRuns, k requires 0 <= k < EvaluationRuns =>
                            Return(Rewards(Trace(rollouts(k), EvaluationLength)), Gamma)))
  {
    assert seq(EvaluationRuns, k requires 0 <= k < EvaluationRuns => RolloutValue(rollouts, k))
        == seq(EvaluationRuns, k requires 0 <= k < EvaluationRuns =>
                 Return(Rewards(Trace(rollouts(k), EvaluationLength)), Gamma));
    Mean(seq(EvaluationRuns, k requires 0 <= k < EvaluationRuns => RolloutValue(rollouts, k)))
  }

  /** Each rollout's value lies between `-(1 + ... + 0.9^69)` and 0, and
      is 0 exactly when that rollout never falls. */
  lemma RolloutValueBounds(rollouts: nat -> Environment, k: nat)
    requires forall s, a, s' :: rollouts(k).reward(Hstack(s, a, s')) == -1.0
                                || rollouts(k).reward(Hstack(s, a, s')) == 0.0
    ensures -Geometric(Gamma, EvaluationLength) <= RolloutValue(rollouts, k) <= 0.0
    ensures RolloutValue(rollouts, k) == 0.0 <==>
              forall i :: 0 <= i < EvaluationLength ==> Trace(rollouts(k), EvaluationLength)[i].reward == 0.0
  {
    var rows := Trace(rollouts(k), EvaluationLength);
    var rs := Rewards(rows);
    assert RolloutValue(rollouts, k) == DiscountedSum(rs, Gamma);
    assert forall i :: 0 <= i < EvaluationLength ==> rs[i] == rows[i].reward;
    TraceRewardsInRange(rollouts(k), EvaluationLength);
    assert RewardsIn(rs);
    ReturnBounds(rs, Gamma);
    ReturnZeroIffNoFall(rs, Gamma);
  }

  lemma MeanBounds(xs: seq<real>, lo: real)
    requires |xs| > 0 && forall k :: 0 <= k < |xs| ==> lo <= xs[k] <= 0.0
    ensures lo <= Mean(xs) <= 0.0
    ensures Mean(xs) == 0.0 <==> forall k :: 0 <= k < |xs| ==> xs[k] == 0.0
  {
    SumBounds(xs, lo);
    var n := |xs| as real;
    assert Mean(xs) * n == Sum(xs);
  }

  /** `1 + 0.9 + ... + 0.9^69 < 1 / (1 - 0.9) = 10`. */
  lemma GeometricBelowTen()
    ensures Geometric(Gamma, EvaluationLength) < 10.0
  {
    GeometricClosedForm(Gamma, EvaluationLength);
    PowPositive(Gamma, EvaluationLength);
  }

  /** Under a reward valued in {-1, 0} the criterion lies in
      `[-(1 - 0.9^70)/(1 - 0.9), 0]`, hence above -10, and it is 0 exactly
      when no rollout ever falls. */
  lemma ImitationPerformanceBounds(rollouts: nat -> Environment)
    requires forall k: nat, s, a, s' :: rollouts(k).reward(Hstack(s, a, s')) == -1.0
                                        || rollouts(k).reward(Hstack(s, a, s')) == 0.0
    ensures -Geometric(Gamma, EvaluationLength) <= ImitationPerformance(rollouts) <= 0.0
    ensures -10.0 < ImitationPerformance(rollouts)
    ensures ImitationPerformance(rollouts) == 0.0 <==>
              forall k, i :: 0 <= k < EvaluationRuns && 0 <= i < EvaluationLength ==>
                Trace(rollouts(k), EvaluationLength)[i].reward == 0.0
  {
    var lo := -Geometric(Gamma, EvaluationLength);
    var values := seq(EvaluationRuns, k requires 0 <= k < EvaluationRuns => RolloutValue(rollouts, k));
    forall k | 0 <= k < EvaluationRuns
      ensures lo <= values[k] <= 0.0
      ensures values[k] == 0.0 <==> forall i :: 0 <= i < EvaluationLength ==>
                                      Trace(rollouts(k), EvaluationLength)[i].reward == 0.0
    {
      RolloutValueBounds(rollouts, k);
    }
    MeanBounds(values, lo);
    GeometricBelowTen();
  }

  lemma {:induction false} PowPositive(g: real, n: nat)
    requires 0.0 < g
    ensures 0.0 < Pow(g, n)
  {
    if n > 0 {
      PowPositive(g, n - 1);
    }
  }

  /** The criterion as the experiment evaluates it: every rollout is
      rewarded by the pendulum's reward, so the bounds above hold. */
  lemma PendulumImitationBounds(rollouts: nat -> Environment)
    requires forall k: nat :: rollouts(k).reward == PendulumReward
    ensures -Geometric(Gamma, EvaluationLength) <= ImitationPerformance(rollouts) <= 0.0
    ensures -10.0 < ImitationPerformance(rollouts)
    ensures ImitationPerformance(rollouts) == 0.0 <==>
              forall k, i :: 0 <= k < EvaluationRuns && 0 <= i < EvaluationLength ==>
                Trace(rollouts(k), EvaluationLength)[i].reward == 0.0
  {
    forall k: nat
      ensures forall s, a, s' :: rollouts(k).reward(Hstack(s, a, s')) == -1.0
                                 || rollouts(k).reward(Hstack(s, a, s')) == 0.0
    {
      PendulumEnvironmentRewards(rollouts(k));
    }
    ImitationPerformanceBounds(rollouts);
  }
}

=== FILE: rollout.dfy ===
/** `inverted_pendulum_trace` of Exp1.py: roll a policy out for a fixed
    number of steps, restarting from a fresh initial state whenever the
    reward is non-zero. Policy, physics, initial-state sampler and reward
    are parameters. */
module Rollout {
  import opened Wrappers
  import opened Pendulum

  const TransWidth: nat := 6
  const RandomRunLength: nat := 5000
  const ExpertRunLength: nat := 3000

  datatype Transition = Transition(state: State, action: int, next: State, reward: real)

  /** `hstack([state, action, new_state])`, the input of the reward. */
  function Hstack(s: State, a: int, s': State): (v: seq<real>)
    ensures |v| == 5 && v[2] == a as real
    ensures v[..2] == [s.position, s.speed] && v[|v| - 2..] == [s'.position, s'.speed]
  {
    [s.position, s.speed, a as real, s'.position, s'.speed]
  }

  /** The six columns of a trace row, `hstack([state, action, new_state, [r]])`. */
  function Row(t: Transition): (v: seq<real>)
    ensures |v| == TransWidth
    ensures v[2] == t.action as real && v[TransWidth - 1] == t.reward
  {
    Hstack(t.state, t.action, t.next) + [t.reward]
  }

  /** The collaborators of a rollout. Randomness is made explicit: the
      number given to `policy` and `step` is the step index, the one given
      to `sample` counts the initial states drawn so far; each stands for a
      position in the random stream. */
  datatype Environment = Environment(
    policy: (nat, State) -> int,
    step: (nat, State, int) -> State,
    sample: nat -> State,
    reward: seq<real> -> real)

  /** Steps `i` to `n - 1` of the loop, starting in `state` with `draws`
      initial states drawn so far. */
  function RolloutFrom(env: Environment, i: nat, n: nat, state: State, draws: nat): (rows: seq<Transition>)
    requires i <= n
    ensures |rows| == n - i
    decreases n - i
  {
    if i == n then []
    else
      var action := env.policy(i, state);
      var next := env.step(i, state, action);
      var r := env.reward(Hstack(state, action, next));
      var row := Transition(state, action, next, r);
      if r == 0.0 then [row] + RolloutFrom(env, i + 1, n, next, draws)
      else [row] + RolloutFrom(env, i + 1, n, env.sample(draws), draws + 1)
  }

  /** `inverted_pendulum_trace(policy, run_length, initial_state, reward)`. */
  function Trace(env: Environment, runLength: nat): (rows: seq<Transition>)
    ensures |rows| == runLength
  {
    RolloutFrom(env, 0, runLength, env.sample(0), 1)
  }

  /** Number of rows whose reward is non-zero (the pendulum fell). */
  function CountFalls(rows: seq<Transition>): nat
  {
    if |rows| == 0 then 0
    else (if rows[0].reward == 0.0 then 0 else 1) + CountFalls(rows[1..])
  }

  /** Row `i` is one step of the environment from its own state. */
  predicate StepAt(env: Environment, rows: seq<Transition>, offset: nat, i: nat)
    requires i < |rows|
  {
    var t := rows[i];
    && t.action == env.policy(offset + i, t.state)
    && t.next == env.step(offset + i, t.state, t.action)
    && t.reward == env.reward(Hstack(t.state, t.action, t.next))
  }

  /** The state the row after row `i` starts from: the physics successor
      after a zero reward, otherwise the next fresh initial state. */
  function Successor(env: Environment, rows: seq<Transition>, draws: nat, i: nat): State
    requires i < |rows|
  {
    if rows[i].reward == 0.0 then rows[i].next
    else env.sample(draws + CountFalls(rows[..i]))
  }

  /** Every row of a rollout is one step of the environment, the first
      from the starting state. */
  lemma {:induction false} RolloutSteps(env: Environment, i: nat, n: nat, state: State, draws: nat)
    requires i <= n
    ensures var rows := RolloutFrom(env, i, n, state, draws);
            && (|rows| > 0 ==> rows[0].state == state)
            && (forall j :: 0 <= j < |rows| ==> StepAt(env, rows, i, j))
    decreases n - i
  {
    if i < n {
      var rows := RolloutFrom(env, i, n, state, draws);
      var row := rows[0];
      var draws' := if row.reward == 0.0 then draws else draws + 1;
      var state' := if row.reward == 0.0 then row.next else env.sample(draws);
      var rest := RolloutFrom(env, i + 1, n, state', draws');
      assert rows == [row] + rest;
      RolloutSteps(env, i + 1, n, state', draws');
      forall j | 0 <= j < |rows|
        ensures StepAt(env, rows, i, j)
      {
        if j > 0 {
          assert rows[j] == rest[j - 1];
          assert StepAt(env, rest, i + 1, j - 1);
        }
      }
    }
  }

  /** Each row of a rollout starts where the previous one left off, or
      from the next drawn initial state after a fall. */
  lemma {:induction false} RolloutChained(env: Environment, i: nat, n: nat, state: State, draws: nat)
    requires i <= n
    ensures var rows := RolloutFrom(env, i, n, state, draws);
            forall j :: 0 <= j < |rows| - 1 ==> rows[j + 1].state == Successor(env, rows, draws, j)
    decreases n - i
  {
    if i < n {
      var rows := RolloutFrom(env, i, n, state, draws);
      var row := rows[0];
      var draws' := if row.reward == 0.0 then draws else draws + 1;
      var state' := if row.reward == 0.0 then row.next else env.sample(draws);
      var rest := RolloutFrom(env, i + 1, n, state', draws');
      assert rows == [row] + rest;
      RolloutChained(env, i + 1, n, state', draws');
      RolloutSteps(env, i + 1, n, state', draws');
      forall j | 0 <= j < |rows| - 1
        ensures rows[j + 1].state == Successor(env, rows, draws, j)
      {
        if j > 0 {
          assert rows[..j][1..] == rest[..j - 1];
          assert CountFalls(rows[..j]) == (if row.reward == 0.0 then 0 else 1) + CountFalls(rest[..j - 1]);
          assert rows[j + 1].state == Successor(env, rest, draws', j - 1);
        } else {
          assert rows[..0] == [];
        }
      }
    }
  }

  /** The trace has exactly `run_length` rows; it starts from the first
      drawn initial state; every row is one policy step with its reward;
      and each row starts where the previous one left off, or from a fresh
      initial state after a non-zero reward. */
  lemma TraceIsRollout(env: Environment, runLength: nat)
    ensures var rows := Trace(env, runLength);
            && |rows| == runLength
            && (runLength > 0 ==> rows[0].state == env.sample(0))
            && (forall i :: 0 <= i < runLength ==> StepAt(env, rows, 0, i))
            && (forall i :: 0 <= i < runLength - 1 ==>
                  rows[i + 1].state == (if rows[i].reward == 0.0 then rows[i].next
                                        else env.sample(1 + CountFalls(rows[..i]))))
  {
    RolloutSteps(env, 0, runLength, env.sample(0), 1);
    RolloutChained(env, 0, runLength, env.sample(0), 1);
    var rows := Trace(env, runLength);
    forall i | 0 <= i < runLength - 1
      ensures rows[i + 1].state == (if rows[i].reward == 0.0 then rows[i].next
                                    else env.sample(1 + CountFalls(rows[..i])))
    {
      assert rows[i + 1].state == Successor(env, rows, 1, i);
    }
  }

  /** With the pendulum's reward every row of a trace is rewarded -1 or 0:
      -1 exactly when the new position is past the horizontal. */
  lemma PendulumRewardOnRows(s: State, a: int, s': State)
    ensures Reward(Hstack(s, a, s')).Ok?
    ensures Reward(Hstack(s, a, s')).value == -1.0 || Reward(Hstack(s, a, s')).value == 0.0
    ensures Reward(Hstack(s, a, s')).value == -1.0 <==> Abs(s'.position) > Pi / 2.0
  {
  }

  /** A reward valued in {-1, 0} on transitions gives a trace whose
      reward column lies in {-1, 0}. */
  lemma TraceRewardsInRange(env: Environment, runLength: nat)
    requires forall s, a, s' :: env.reward(Hstack(s, a, s')) == -1.0 || env.reward(Hstack(s, a, s')) == 0.0
    ensures forall i :: 0 <= i < runLength ==>
              Trace(env, runLength)[i].reward == -1.0 || Trace(env, runLength)[i].reward == 0.0
  {
    TraceIsRollout(env, runLength);
    var rows := Trace(env, runLength);
    forall i | 0 <= i < runLength
      ensures rows[i].reward == -1.0 || rows[i].reward == 0.0
    {
      assert StepAt(env, rows, 0, i);
    }
  }

  /** `inverted_pendulum_reward` as a rollout calls it. A rollout only
      ever gives it the five components of `Hstack`, where it succeeds; the
      0.0 for other lengths, where the source raises, is never produced by
      a rollout. */
  function PendulumReward(sas: seq<real>): (r: real)
    ensures 5 <= |sas| <= 9 ==> VectorizedReward(sas) == Ok(r) && Reward(sas) == Ok(r)
    ensures 5 <= |sas| <= 9 ==> (r == -1.0 <==> Abs(sas[|sas| - 2]) > Pi / 2.0)
  {
    match VectorizedReward(sas)
    case Ok(r) => r
    case Err(_) => 0.0
  }

  /** An environment rewarded by the pendulum's reward gives every
      transition a reward of -1 or 0. */
  lemma PendulumEnvironmentRewards(env: Environment)
    requires env.reward == PendulumReward
    ensures forall s, a, s' :: env.reward(Hstack(s, a, s')) == -1.0 || env.reward(Hstack(s, a, s')) == 0.0
  {
    forall s, a, s'
      ensures env.reward(Hstack(s, a, s')) == -1.0 || env.reward(Hstack(s, a, s')) == 0.0
    {
      PendulumRewardOnRows(s, a, s');
    }
  }
}

=== FILE: shapes.dfy ===
/** Shape bookkeeping of Exp1.py: `non_scalar_vectorize`, which applies a
    per-item function across the leading (batch) dimensions of an array, and
    `zip_stack`, which interleaves equally sized arrays into a trailing
    tuple dimension. A numpy array is its shape plus its elements in
    row-major order. */
module Shapes {
  import opened Wrappers
  import Arith

  datatype NdArray<T> = NdArray(shape: seq<nat>, data: seq<T>)

  /** Number of elements of an array of the given shape (numpy's `prod`). */
  function Prod(dims: seq<nat>): nat
  {
    if |dims| == 0 then 1 else dims[0] * Prod(dims[1..])
  }

  /** numpy's own invariant: the element count matches the shape. */
  predicate Valid<T>(a: NdArray<T>)
  {
    |a.data| == Prod(a.shape)
  }

  lemma {:induction false} ProdAppend(a: seq<nat>, b: seq<nat>)
    ensures Prod(a + b) == Prod(a) * Prod(b)
  {
    if |a| > 0 {
      assert (a + b)[1..] == a[1..] + b;
      ProdAppend(a[1..], b);
      assert a[0] * (Prod(a[1..]) * Prod(b)) == (a[0] * Prod(a[1..])) * Prod(b);
    } else {
      assert a + b == b;
    }
  }

  function Concat<T>(blocks: seq<seq<T>>): seq<T>
  {
    if |blocks| == 0 then [] else blocks[0] + Concat(blocks[1..])
  }

  /** Consecutive blocks of `size` elements; a short tail is dropped. */
  function Chunks<T>(s: seq<T>, size: nat): (blocks: seq<seq<T>>)
    requires size > 0
    ensures forall k :: 0 <= k < |blocks| ==> |blocks[k]| == size
    decreases |s|
  {
    if |s| < size then [] else [s[..size]] + Chunks(s[size..], size)
  }

  lemma {:induction false} ChunksCount<T>(s: seq<T>, size: nat, n: nat)
    requires size > 0 && |s| == n * size
    ensures |Chunks(s, size)| == n
    decreases n
  {
    if n > 0 {
      assert |s[size..]| == (n - 1) * size;
      ChunksCount(s[size..], size, n - 1);
    }
  }

  /** Cutting a concatenation of equal blocks gives the blocks back. */
  lemma {:induction false} ChunksOfConcat<T>(blocks: seq<seq<T>>, size: nat)
    requires size > 0
    requires forall k :: 0 <= k < |blocks| ==> |blocks[k]| == size
    ensures |Concat(blocks)| == |blocks| * size
    ensures Chunks(Concat(blocks), size) == blocks
  {
    ConcatLength(blocks, size);
    if |blocks| > 0 {
      ChunksOfConcat(blocks[1..], size);
      var c := Concat(blocks);
      assert c == blocks[0] + Concat(blocks[1..]);
      assert c[..size] == blocks[0];
      assert c[size..] == Concat(blocks[1..]);
      assert blocks == [blocks[0]] + blocks[1..];
    }
  }

  lemma {:induction false} ConcatLength<T>(blocks: seq<seq<T>>, size: nat)
    requires forall k :: 0 <= k < |blocks| ==> |blocks[k]| == size
    ensures |Concat(blocks)| == |blocks| * size
  {
    if |blocks| > 0 {
      ConcatLength(blocks[1..], size);
      assert |blocks| * size == size + (|blocks| - 1) * size;
    }
  }

  /** Element `j` of block `i` sits at `i * size + j` of the concatenation. */
  lemma {:induction false} ConcatIndex<T>(blocks: seq<seq<T>>, size: nat, i: nat, j: nat)
    requires forall k :: 0 <= k < |blocks| ==> |blocks[k]| == size
    requires i < |blocks| && j < size
    ensures |Concat(blocks)| == |blocks| * size
    ensures i * size + j < |Concat(blocks)| && Concat(blocks)[i * size + j] == blocks[i][j]
  {
    if i == 0 {
      ChunksOfConcat(blocks, size);
    } else {
      ConcatIndex(blocks[1..], size, i - 1, j);
      assert (i - 1) * size + j + size == i * size + j;
    }
  }

  /** Gluing the blocks of a whole number of blocks gives the sequence back. */
  lemma {:induction false} ConcatOfChunks<T>(s: seq<T>, size: nat, n: nat)
    requires size > 0 && |s| == n * size
    ensures Concat(Chunks(s, size)) == s
    decreases n
  {
    if n > 0 {
      assert |s[size..]| == (n - 1) * size;
      ConcatOfChunks(s[size..], size, n - 1);
      assert s == s[..size] + s[size..];
    } else {
      assert s == [];
    }
  }

  /** Python's `s[:stop]`: a negative stop counts from the end. */
  function SliceTo<T>(s: seq<T>, stop: int): seq<T>
  {
    if stop >= 0 then s[..if stop <= |s| then stop else |s|]
    else if |s| + stop >= 0 then s[..|s| + stop]
    else []
  }

  /** The batch dimensions `non_scalar_vectorize` keeps: the shape without
      its last `|inputShape|` dimensions, or `(1,)` when nothing is left. */
  function OuterShape(shape: seq<nat>, inputShape: seq<nat>): (o: seq<nat>)
    ensures |o| > 0
    ensures |shape| > |inputShape| ==> o + shape[|shape| - |inputShape|..] == shape
    ensures |shape| == |inputShape| ==> o == [1]
  {
    var o := SliceTo(shape, |shape| - |inputShape|);
    if o == [] then [1] else o
  }

  /** numpy's `reshape`: same elements, new shape, sizes must agree. */
  function Reshape<T>(a: NdArray<T>, shape: seq<nat>): (r: Result<NdArray<T>>)
    ensures r.Ok? <==> Prod(shape) == |a.data|
    ensures r.Ok? ==> r.value.shape == shape && r.value.data == a.data && Valid(r.value)
    ensures r.Err? ==> r.error == ShapeMismatch
  {
    if Prod(shape) == |a.data| then Ok(NdArray(shape, a.data)) else Err(ShapeMismatch)
  }

  /** Applies `func` to each input in order; the first failure propagates,
      as the first exception of the source's loop would. */
  function MapAll<T, U>(func: NdArray<T> -> Result<NdArray<U>>, inputs: seq<NdArray<T>>): (r: Result<seq<NdArray<U>>>)
    ensures r.Ok? <==> forall k :: 0 <= k < |inputs| ==> func(inputs[k]).Ok?
    ensures r.Ok? ==> |r.value| == |inputs|
    ensures r.Ok? ==> forall k :: 0 <= k < |inputs| ==> func(inputs[k]) == Ok(r.value[k])
  {
    if |inputs| == 0 then Ok([])
    else
      var head :- func(inputs[0]);
      var tail :- MapAll(func, inputs[1..]);
      Ok([head] + tail)
  }

  function Datas<T>(arrays: seq<NdArray<T>>): (ds: seq<seq<T>>)
    ensures |ds| == |arrays|
  {
    seq(|arrays|, k requires 0 <= k < |arrays| => arrays[k].data)
  }

  /** numpy's `array(answers)`: equally shaped answers gain a leading
      dimension; an empty list becomes shape `(0,)`. */
  function Stack<U>(answers: seq<NdArray<U>>): (r: Result<NdArray<U>>)
    ensures |answers| == 0 ==> r == Ok(NdArray([0], []))
    ensures |answers| > 0 ==> (r.Ok? <==> forall k :: 0 <= k < |answers| ==> answers[k].shape == answers[0].shape)
    ensures r.Err? ==> r.error == RaggedAnswers
    ensures |answers| > 0 && r.Ok? ==> r.value.shape == [|answers|] + answers[0].shape
    ensures |answers| > 0 && r.Ok? && Prod(answers[0].shape) > 0 && (forall k :: 0 <= k < |answers| ==> Valid(answers[k])) ==>
              Valid(r.value) && Chunks(r.value.data, Prod(answers[0].shape)) == Datas(answers)
  {
    if |answers| == 0 then Ok(NdArray([0], []))
    else if forall k :: 0 <= k < |answers| ==> answers[k].shape == answers[0].shape
    then
      var size := Prod(answers[0].shape);
      if size > 0 && forall k :: 0 <= k < |answers| ==> Valid(answers[k]) then
        ChunksOfConcat(Datas(answers), size);
        ProdAppend([|answers|], answers[0].shape);
        Ok(NdArray([|answers|] + answers[0].shape, Concat(Datas(answers))))
      else Ok(NdArray([|answers|] + answers[0].shape, Concat(Datas(answers))))
    else Err(RaggedAnswers)
  }

  /** The input slices of `arg.reshape((nbinputs,)+input_shape)`, in order. */
  function InputSlices<T>(arg: NdArray<T>, inputShape: seq<nat>): seq<NdArray<T>>
    requires Prod(inputShape) > 0
  {
    var blocks := Chunks(arg.data, Prod(inputShape));
    seq(|blocks|, k requires 0 <= k < |blocks| => NdArray(inputShape, blocks[k]))
  }

  /** `func` accepts every item of the declared input shape and answers
      with the declared output shape. */
  ghost predicate MapsShape<T(!new), U>(func: NdArray<T> -> Result<NdArray<U>>, inputShape: seq<nat>, outputShape: seq<nat>)
  {
    forall x: NdArray<T> {:trigger func(x)} :: x.shape == inputShape && Valid(x) ==>
      func(x).Ok? && func(x).value.shape == outputShape && Valid(func(x).value)
  }

  /** The batch path of `vectorized_func`: reshape the argument into
      items, apply `func` to each, stack, and reshape to
      `outer_shape + output_shape`. */
  function VectorizeSlices<T, U>(func: NdArray<T> -> Result<NdArray<U>>, inputShape: seq<nat>,
                                 outputShape: seq<nat>, arg: NdArray<T>): (r: Result<NdArray<U>>)
    requires Prod(inputShape) > 0 && Valid(arg)
    ensures r.Ok? ==> Prod(arg.shape) % Prod(inputShape) == 0
    ensures r.Ok? ==> MapAll(func, InputSlices(arg, inputShape)).Ok?
    ensures r.Ok? ==> r.value.shape == OuterShape(arg.shape, inputShape) + outputShape && Valid(r.value)
  {
    var n := Prod(arg.shape) / Prod(inputShape);
    if n * Prod(inputShape) != Prod(arg.shape) then Err(ShapeMismatch)
    else
      var answers :- MapAll(func, InputSlices(arg, inputShape));
      var stacked :- Stack(answers);
      Reshape(stacked, OuterShape(arg.shape, inputShape) + outputShape)
  }

  /** `non_scalar_vectorize(func, input_shape, output_shape)(arg)` as
      written: whenever the argument holds exactly one item's worth of
      elements, `func` receives the argument whole, whatever its shape. */
  function NonScalarVectorize<T, U>(func: NdArray<T> -> Result<NdArray<U>>, inputShape: seq<nat>,
                                    outputShape: seq<nat>, arg: NdArray<T>): (r: Result<NdArray<U>>)
    requires Prod(inputShape) > 0 && Valid(arg)
    ensures Prod(arg.shape) / Prod(inputShape) == 1 ==> r == func(arg)
    ensures Prod(arg.shape) / Prod(inputShape) != 1 && r.Ok? ==>
      r.value.shape == OuterShape(arg.shape, inputShape) + outputShape && Valid(r.value)
  {
    if Prod(arg.shape) / Prod(inputShape) == 1 then func(arg)
    else VectorizeSlices(func, inputShape, outputShape, arg)
  }

  /** `shape` is laid out as a batch of `inputShape` items: one or more
      leading dimensions followed by `inputShape` itself. */
  predicate IsBatch(shape: seq<nat>, inputShape: seq<nat>)
  {
    |shape| > |inputShape| && shape[|shape| - |inputShape|..] == inputShape
  }

  /** The vectorizer as its documentation describes it: an argument laid
      out as a batch is always sliced, a batch of one included; any other
      argument with one item's worth of elements still goes to `func`
      whole. */
  function Vectorize<T, U>(func: NdArray<T> -> Result<NdArray<U>>, inputShape: seq<nat>,
                           outputShape: seq<nat>, arg: NdArray<T>): (r: Result<NdArray<U>>)
    requires Prod(inputShape) > 0 && Valid(arg)
    ensures arg.shape == inputShape ==> r == func(arg)
    ensures !IsBatch(arg.shape, inputShape) ==> r == NonScalarVectorize(func, inputShape, outputShape, arg)
    ensures IsBatch(arg.shape, inputShape) ==> r == VectorizeSlices(func, inputShape, outputShape, arg)
    ensures IsBatch(arg.shape, inputShape) && r.Ok? ==>
      r.value.shape == OuterShape(arg.shape, inputShape) + outputShape && Valid(r.value)
  {
    Arith.DivModUnique(Prod(inputShape), Prod(inputShape), 1, 0);
    if Prod(arg.shape) / Prod(inputShape) == 1 && !IsBatch(arg.shape, inputShape) then func(arg)
    else VectorizeSlices(func, inputShape, outputShape, arg)
  }

  /** On an argument made of `Prod(outer)` items, the batch path answers
      with shape `outer + outputShape`, and its k-th block of output is
      `func`'s answer for the k-th input item. */
  lemma SlicePathSucceeds<T(!new), U>(func: NdArray<T> -> Result<NdArray<U>>, inputShape: seq<nat>,
                                outputShape: seq<nat>, outer: seq<nat>, data: seq<T>)
    requires Prod(inputShape) > 0 && Prod(outputShape) > 0 && |outer| > 0
    requires |data| == Prod(outer + inputShape)
    requires MapsShape(func, inputShape, outputShape)
    ensures var arg := NdArray(outer + inputShape, data);
            var r := VectorizeSlices(func, inputShape, outputShape, arg);
            var slices := InputSlices(arg, inputShape);
            && r.Ok? && r.value.shape == outer + outputShape && Valid(r.value)
            && |slices| == Prod(outer)
            && |Chunks(r.value.data, Prod(outputShape))| == Prod(outer)
            && forall k :: 0 <= k < Prod(outer) ==>
                 slices[k].data == Chunks(data, Prod(inputShape))[k]
                 && func(slices[k]) == Ok(NdArray(outputShape, Chunks(r.value.data, Prod(outputShape))[k]))
  {
    var arg := NdArray(outer + inputShape, data);
    var p := Prod(inputShape);
    var q := Prod(outputShape);
    var n := Prod(outer);
    ProdAppend(outer, inputShape);
    Arith.DivModUnique(n * p, p, n, 0);
    assert Prod(arg.shape) / p == n;
    ChunksCount(data, p, n);
    var slices := InputSlices(arg, inputShape);
    assert |slices| == n;
    forall k | 0 <= k < n
      ensures func(slices[k]).Ok?
    {
      assert slices[k].shape == inputShape && Valid(slices[k]);
    }
    var answers := MapAll(func, slices).value;
    assert forall k :: 0 <= k < n ==> answers[k].shape == outputShape;
    var datas := Datas(answers);
    assert forall k :: 0 <= k < n ==> |datas[k]| == q;
    ChunksOfConcat(datas, q);
    assert |outer + inputShape| - |inputShape| == |outer|;
    assert (outer + inputShape)[..|outer|] == outer;
    assert OuterShape(arg.shape, inputShape) == outer;
    ProdAppend(outer, outputShape);
    if n == 0 {
      assert Stack(answers) == Ok(NdArray([0], []));
    } else {
      assert Stack(answers) == Ok(NdArray([n] + outputShape, Concat(datas)));
    }
    forall k | 0 <= k < n
      ensures answers[k] == NdArray(outputShape, datas[k])
    {
    }
  }

  /** Exp1.py:35-44 for a genuine batch: `func` runs once per item, in
      order, and the answer has shape `outer_shape + output_shape`. */
  lemma VectorizeAppliesPerItem<T(!new), U>(func: NdArray<T> -> Result<NdArray<U>>, inputShape: seq<nat>,
                                      outputShape: seq<nat>, outer: seq<nat>, data: seq<T>)
    requires Prod(inputShape) > 0 && Prod(outputShape) > 0 && |outer| > 0 && Prod(outer) != 1
    requires |data| == Prod(outer + inputShape)
    requires MapsShape(func, inputShape, outputShape)
    ensures var arg := NdArray(outer + inputShape, data);
            var r := NonScalarVectorize(func, inputShape, outputShape, arg);
            var slices := InputSlices(arg, inputShape);
            && r.Ok? && r.value.shape == outer + outputShape
            && |slices| == Prod(outer)
            && |Chunks(r.value.data, Prod(outputShape))| == Prod(outer)
            && forall k :: 0 <= k < Prod(outer) ==>
                 func(slices[k]) == Ok(NdArray(outputShape, Chunks(r.value.data, Prod(outputShape))[k]))
  {
    ProdAppend(outer, inputShape);
    Arith.DivModUnique(Prod(outer) * Prod(inputShape), Prod(inputShape), Prod(outer), 0);
    SlicePathSucceeds(func, inputShape, outputShape, outer, data);
  }

  /** As written, a batch holding a single item (shape `(1,) + input_shape`)
      is not sliced: `func` receives the whole batch. */
  lemma BatchOfOneGoesWhole<T, U>(func: NdArray<T> -> Result<NdArray<U>>, inputShape: seq<nat>,
                                  outputShape: seq<nat>, data: seq<T>)
    requires Prod(inputShape) > 0 && |data| == Prod(inputShape)
    ensures NonScalarVectorize(func, inputShape, outputShape, NdArray([1] + inputShape, data))
            == func(NdArray([1] + inputShape, data))
  {
    ProdAppend([1], inputShape);
    Arith.DivModUnique(Prod(inputShape), Prod(inputShape), 1, 0);
  }

  /** The corrected vectorizer handles every batch, a batch of one
      included, by slicing. */
  lemma {:induction false} VectorizeBatch<T(!new), U>(func: NdArray<T> -> Result<NdArray<U>>, inputShape: seq<nat>,
                                                outputShape: seq<nat>, outer: seq<nat>, data: seq<T>)
    requires Prod(inputShape) > 0 && Prod(outputShape) > 0 && |outer| > 0
    requires |data| == Prod(outer + inputShape)
    requires MapsShape(func, inputShape, outputShape)
    ensures var arg := NdArray(outer + inputShape, data);
            var r := Vectorize(func, inputShape, outputShape, arg);
            var slices := InputSlices(arg, inputShape);
            && r.Ok? && r.value.shape == outer + outputShape
            && |slices| == Prod(outer)
            && |Chunks(r.value.data, Prod(outputShape))| == Prod(outer)
            && forall k :: 0 <= k < Prod(outer) ==>
                 func(slices[k]) == Ok(NdArray(outputShape, Chunks(r.value.data, Prod(outputShape))[k]))
  {
    assert (outer + inputShape)[|outer|..] == inputShape;
    SlicePathSucceeds(func, inputShape, outputShape, outer, data);
  }

  /** With the corrected vectorizer a single item and a batch of one give
      the same elements; only the leading dimension of size one differs. */
  lemma BatchOfOneMatchesSingle<T(!new), U>(func: NdArray<T> -> Result<NdArray<U>>, inputShape: seq<nat>,
                                      outputShape: seq<nat>, data: seq<T>)
    requires Prod(inputShape) > 0 && Prod(outputShape) > 0 && |data| == Prod(inputShape)
    requires MapsShape(func, inputShape, outputShape)
    ensures var single := Vectorize(func, inputShape, outputShape, NdArray(inputShape, data));
            var batch := Vectorize(func, inputShape, outputShape, NdArray([1] + inputShape, data));
            && single.Ok? && batch.Ok?
            && batch.value.shape == [1] + single.value.shape
            && batch.value.data == single.value.data
  {
    ProdAppend([1], inputShape);
    VectorizeBatch(func, inputShape, outputShape, [1], data);
    var batch := Vectorize(func, inputShape, outputShape, NdArray([1] + inputShape, data)).value;
    var q := Prod(outputShape);
    ChunksCount(data, Prod(inputShape), 1);
    assert Chunks(data, Prod(inputShape))[0] == data;
    ProdAppend([1], outputShape);
    ConcatOfChunks(batch.data, q, 1);
    assert Concat(Chunks(batch.data, q)) == Chunks(batch.data, q)[0];
  }

  function MinLength<T>(args: seq<NdArray<T>>): (m: nat)
    requires |args| > 0
    ensures forall k :: 0 <= k < |args| ==> m <= |args[k].data|
    ensures exists k :: 0 <= k < |args| && m == |args[k].data|
  {
    if |args| == 1 then |args[0].data|
    else
      var rest := MinLength(args[1..]);
      if |args[0].data| <= rest then |args[0].data| else rest
  }

  /** Row `i` of a zip: element `i` of every argument, in argument order. */
  function ZipRow<T>(args: seq<NdArray<T>>, i: nat): (row: seq<T>)
    requires forall k :: 0 <= k < |args| ==> i < |args[k].data|
    ensures |row| == |args|
  {
    seq(|args|, k requires 0 <= k < |args| => args[k].data[i])
  }

  /** The zipped elements, row by row. */
  function Interleave<T>(args: seq<NdArray<T>>, len: nat): (rows: seq<seq<T>>)
    requires forall k :: 0 <= k < |args| ==> len <= |args[k].data|
    ensures |rows| == len
    ensures forall i :: 0 <= i < len ==> rows[i] == ZipRow(args, i)
  {
    seq(len, i requires 0 <= i < len => ZipRow(args, i))
  }

  /** `zip_stack(*args)`: flatten each argument, zip them (Python's `zip`
      stops at the shortest), and reshape to `args[0].shape + (n,)`.
      Element `[i][k]` of the answer is element `i` of argument `k`. */
  function ZipStack<T>(args: seq<NdArray<T>>): (r: Result<NdArray<T>>)
    requires forall k :: 0 <= k < |args| ==> Valid(args[k])
    ensures |args| == 0 ==> r == Err(NoArguments)
    ensures |args| > 0 ==> (r.Ok? <==> forall k :: 0 <= k < |args| ==> |args[k].data| >= |args[0].data|)
    ensures r.Ok? ==> r.value.shape == args[0].shape + [|args|] && Valid(r.value)
    ensures r.Ok? ==> |Chunks(r.value.data, |args|)| == |args[0].data|
    ensures r.Ok? ==> forall i, k :: 0 <= i < |args[0].data| && 0 <= k < |args| ==>
      Chunks(r.value.data, |args|)[i][k] == args[k].data[i]
  {
    if |args| == 0 then Err(NoArguments)
    else
      var len := MinLength(args);
      var rows := Interleave(args, len);
      ZipReshape(args, len, rows);
      Reshape(NdArray([len, |args|], Concat(rows)), args[0].shape + [|args|])
  }

  /** The final reshape of `zip_stack` succeeds exactly when no argument is
      shorter than the first, and then every row is a full zip row. */
  lemma ZipReshape<T>(args: seq<NdArray<T>>, len: nat, rows: seq<seq<T>>)
    requires |args| > 0 && Valid(args[0]) && len == MinLength(args) && rows == Interleave(args, len)
    ensures Chunks(Concat(rows), |args|) == rows
    ensures (Prod(args[0].shape + [|args|]) == |Concat(rows)|)
            <==> forall k :: 0 <= k < |args| ==> |args[k].data| >= |args[0].data|
    ensures Prod(args[0].shape + [|args|]) == |Concat(rows)| ==> len == |args[0].data|
  {
    var n := |args|;
    ChunksOfConcat(rows, n);
    ProdAppend(args[0].shape, [n]);
    assert Prod([n]) == n;
    if len * n == |args[0].data| * n {
      Arith.MulCancel(len, |args[0].data|, n);
    }
  }

  /** Column `k` of a zip-stacked array (`z[..., k]`, flattened). */
  function Column<T>(z: seq<T>, n: nat, k: nat): (col: seq<T>)
    requires k < n
  {
    var rows := Chunks(z, n);
    seq(|rows|, i requires 0 <= i < |rows| => rows[i][k])
  }

  /** Taking column `k` of `zip_stack(*args)` gives back argument `k`
      (its first `prod(shape)` elements, all of it when sizes agree). */
  lemma ZipStackColumns<T>(args: seq<NdArray<T>>)
    requires |args| > 0 && forall k :: 0 <= k < |args| ==> Valid(args[k])
    requires forall k :: 0 <= k < |args| ==> |args[k].data| >= |args[0].data|
    ensures var r := ZipStack(args);
            && r.Ok?
            && forall k :: 0 <= k < |args| ==> Column(r.value.data, |args|, k) == args[k].data[..|args[0].data|]
  {
  }
}

=== FILE: walks.dfy ===
/** The random-walk generator of InvertedPendulum/generator.c: 500 walks,
    each a chain of steps that stops at the first step whose end-of-episode
    flag is not 1, or at the length cap, where the flag is forced to 0.
    `iv_init`, `random_int` and `iv_step` are parameters, indexed by walk
    and step number in place of the shared random stream. */
module Walks {
  import opened Pendulum
  import Shapes

  const NumberOfWalks: nat := 500
  const MaxWalkLength: nat := 3000

  /** What `iv_step` writes to its output arguments. */
  datatype Outcome = Outcome(next: State, reward: real, eoe: int)

  datatype Simulator = Simulator(
    init: nat -> State,
    action: (nat, nat) -> int,
    step: (nat, nat, State, int) -> Outcome)

  /** One printed line: state, action, next state, reward, flag. */
  datatype Row = Row(state: State, action: int, next: State, reward: real, eoe: int)

  /** Steps `j, j+1, ...` of walk `i`, from `state`: at least one step, no
      step past the cap, and a finished episode. */
  function WalkFrom(sim: Simulator, i: nat, j: nat, state: State): (rows: seq<Row>)
    requires j < MaxWalkLength
    ensures 1 <= |rows| <= MaxWalkLength - j
    ensures rows[0].state == state && rows[0].action == sim.action(i, j)
    ensures Terminated(rows)
    decreases MaxWalkLength - j
  {
    var a := sim.action(i, j);
    var o := sim.step(i, j, state, a);
    var eoe := if j == MaxWalkLength - 1 then 0 else o.eoe;
    var row := Row(state, a, o.next, o.reward, eoe);
    if j + 1 < MaxWalkLength && eoe == 1 then [row] + WalkFrom(sim, i, j + 1, o.next)
    else [row]
  }

  /** Walk `i`, from the state `iv_init` gives it. */
  function Walk(sim: Simulator, i: nat): (rows: seq<Row>)
    ensures 1 <= |rows| <= MaxWalkLength
    ensures rows[0].state == sim.init(i) && Terminated(rows)
  {
    WalkFrom(sim, i, 0, sim.init(i))
  }

  /** The walks of one run of the generator, in order. */
  function Generate(sim: Simulator): (walks: seq<seq<Row>>)
    ensures |walks| == NumberOfWalks
  {
    seq(NumberOfWalks, i requires 0 <= i < NumberOfWalks => Walk(sim, i))
  }

  /** All printed lines of one run. */
  function Output(sim: Simulator): seq<Row>
  {
    Shapes.Concat(Generate(sim))
  }

  /** A finished episode: non-empty, every row but the last says "continue"
      (flag 1), and the last does not. */
  predicate Terminated(rows: seq<Row>)
  {
    && |rows| > 0
    && (forall k :: 0 <= k < |rows| - 1 ==> rows[k].eoe == 1)
    && rows[|rows| - 1].eoe != 1
  }

  /** Row `k` is step `j + k` of walk `i`, taken from its own state. */
  predicate StepAt(sim: Simulator, i: nat, j: nat, rows: seq<Row>, k: nat)
    requires k < |rows|
  {
    var r := rows[k];
    var o := sim.step(i, j + k, r.state, r.action);
    && r.action == sim.action(i, j + k)
    && r.next == o.next && r.reward == o.reward
    && (r.eoe == o.eoe || (j + k == MaxWalkLength - 1 && r.eoe == 0))
  }

  lemma {:induction false} WalkFromShape(sim: Simulator, i: nat, j: nat, state: State)
    requires j < MaxWalkLength
    ensures var rows := WalkFrom(sim, i, j, state);
            && 1 <= |rows| <= MaxWalkLength - j
            && Terminated(rows)
            && (j + |rows| == MaxWalkLength ==> rows[|rows| - 1].eoe == 0)
            && rows[0].state == state
            && (forall k :: 0 <= k < |rows| - 1 ==> rows[k + 1].state == rows[k].next)
            && (forall k :: 0 <= k < |rows| ==> StepAt(sim, i, j, rows, k))
    decreases MaxWalkLength - j
  {
    var rows := WalkFrom(sim, i, j, state);
    var row := rows[0];
    if |rows| > 1 {
      var rest := WalkFrom(sim, i, j + 1, row.next);
      assert rows == [row] + rest;
      WalkFromShape(sim, i, j + 1, row.next);
      forall k | 0 <= k < |rows| - 1
        ensures rows[k].eoe == 1 && rows[k + 1].state == rows[k].next
      {
        if k > 0 {
          assert rows[k] == rest[k - 1];
        }
      }
      forall k | 0 <= k < |rows|
        ensures StepAt(sim, i, j, rows, k)
      {
        if k > 0 {
          assert rows[k] == rest[k - 1];
          assert StepAt(sim, i, j + 1, rest, k - 1);
        }
      }
    }
  }

  /** Every walk has between 1 and 3000 rows, starts from its `iv_init`
      state, chains each row's state to the previous row's next state,
      flags every row but the last with 1, and ends on a flag other than
      1, which is 0 when the walk reached the cap. */
  lemma WalkShape(sim: Simulator, i: nat)
    ensures var rows := Walk(sim, i);
            && 1 <= |rows| <= MaxWalkLength
            && rows[0].state == sim.init(i)
            && (forall k :: 0 <= k < |rows| - 1 ==> rows[k].eoe == 1 && rows[k + 1].state == rows[k].next)
            && rows[|rows| - 1].eoe != 1
            && (|rows| == MaxWalkLength ==> rows[|rows| - 1].eoe == 0)
            && (forall k :: 0 <= k < |rows| ==> StepAt(sim, i, 0, rows, k))
  {
    WalkFromShape(sim, i, 0, sim.init(i));
  }

  /** Position of the first row whose flag is not 1. */
  function FirstEnd(rows: seq<Row>): (k: nat)
    ensures k <= |rows|
    ensures k < |rows| ==> rows[k].eoe != 1
    ensures forall m :: 0 <= m < k ==> rows[m].eoe == 1
  {
    if |rows| == 0 then 0
    else if rows[0].eoe != 1 then 0
    else 1 + FirstEnd(rows[1..])
  }

  /** How a reader of the output recovers the episodes: cut after every
      row whose flag is not 1 (a trailing unfinished episode is kept). */
  function SplitEpisodes(rows: seq<Row>): seq<seq<Row>>
    decreases |rows|
  {
    if |rows| == 0 then []
    else
      var k := FirstEnd(rows);
      if k == |rows| then [rows]
      else [rows[..k + 1]] + SplitEpisodes(rows[k + 1..])
  }

  lemma FirstEndOfTerminated(w: seq<Row>, rest: seq<Row>)
    requires Terminated(w)
    ensures FirstEnd(w + rest) == |w| - 1
  {
    assert forall m :: 0 <= m < |w| ==> (w + rest)[m] == w[m];
  }

  /** A finished episode in front is split off whole. */
  lemma SplitFirst(w: seq<Row>, rest: seq<Row>)
    requires Terminated(w)
    ensures SplitEpisodes(w + rest) == [w] + SplitEpisodes(rest)
  {
    FirstEndOfTerminated(w, rest);
    assert (w + rest)[..|w|] == w;
    assert (w + rest)[|w|..] == rest;
  }

  /** Splitting the concatenation of finished episodes at their flags gives
      the episodes back. */
  lemma {:induction false} SplitConcat(walks: seq<seq<Row>>)
    requires forall w :: 0 <= w < |walks| ==> Terminated(walks[w])
    ensures SplitEpisodes(Shapes.Concat(walks)) == walks
  {
    if |walks| > 0 {
      var rest := Shapes.Concat(walks[1..]);
      assert Shapes.Concat(walks) == walks[0] + rest;
      SplitFirst(walks[0], rest);
      SplitConcat(walks[1..]);
      assert walks == [walks[0]] + walks[1..];
    }
  }

  /** The generator's output splits back into exactly its 500 walks. */
  lemma OutputSplitsIntoWalks(sim: Simulator)
    ensures SplitEpisodes(Output(sim)) == Generate(sim)
    ensures |SplitEpisodes(Output(sim))| == NumberOfWalks
  {
    var walks := Generate(sim);
    forall w | 0 <= w < |walks|
      ensures Terminated(walks[w])
    {
      WalkShape(sim, w);
    }
    SplitConcat(walks);
  }
}

=== FILE: wrappers.dfy ===
/** Failure-carrying results. Each `Error` names the exception (Python) or
    error path (C) that the modelled code raises or takes. */
module Wrappers {

  datatype Error =
    | ShapeMismatch   // numpy `reshape` or broadcasting refuses the sizes
    | RaggedAnswers   // stacked answers of different shapes
    | NoArguments     // `args[0]` on an empty argument list
    | UnpackMismatch  // tuple unpacking of the wrong number of values
    | EmptySequence   // `max` of an empty sequence
    | OutOfRange      // index outside the matrix (GSL range check)

  datatype Option<+T> = None | Some(value: T)

  datatype Result<+T> = Ok(value: T) | Err(error: Error) {

    predicate IsFailure() {
      Err?
    }

    function PropagateFailure<U>(): Result<U>
      requires Err?
    {
      Err(error)
    }

    function Extract(): T
      requires Ok?
    {
      value
    }
  }
}
